=== FILE: README.md ===
# Expense tracker server: a verified model of its core

This project models, in Dafny, the deterministic core of an Express/Mongo
expense-tracker backend. It has three parts.

- **The transaction read handlers.**
  - `getRecentTransactions`: the 15 newest transactions, plus a 12-slot month chart filled by a loop over a JavaScript array.
  - `getAllTransactions` and `getFilteredTransactions`: one page, newest first, behind a filter built by conditional assignment.
  - `getTagsAndPaymentMethods`.
  - `getInsightsData`: the overview, the peak year and the per-tag donut breakdowns.
  - The chart helpers written after that handler's `return`: the dense month series, the yearly series, category colours and names, the amount histogram and the two-year trend. They never run, so they are modelled as standalone functions and no handler returns them.
- **The e-mail OTP account state machine** (signup, signin, verifyOTP and resendOTP), with the store's TTL deletion of expired codes. A `class AuthService` holds the user and OTP collections as `seq` fields, and its methods update them in place. Each method is proved equal to a pure step function, and the step functions carry the properties: order of checks, HTTP status, what is written, and the stores' invariant.
- **The request schemas and stored-record constraints** (Joi and Mongoose), as predicates over a JSON body. The project proves how the schemas relate to what the store accepts.

Modules:

| module | models |
|---|---|
| `Wrappers` | Option and Result |
| `Text` | trim, case mapping, decimal text of numbers |
| `Calendar` | dates as (year, month 0..11, day, ms of day), their order, and the windows the handlers query |
| `Aggregation` | `$match`, `$group`+`$sum`, `$sort`, `skip`/`limit`, `new Map(...)` as functions on sequences |
| `Request` | JSON bodies, and the parts of Joi's object and string rules in use |
| `TransactionModel` | the stored transaction and what the store accepts |
| `TransactionSchemas` | both add-transaction schemas |
| `AuthSchemas` | the auth schemas |
| `OtpModel` | the OTP record |
| `Auth` | the auth controller |
| `Transactions` | the transaction controller |
| `InsightCharts` | the post-return chart helpers |

Outside inputs are parameters:

- The clock, `now`.
- The generated code, `code`.
- Whether the mail service delivered, `mailDelivered`. A failed delivery throws, and the handler answers 500 after the writes it has already made.
- The password check of the hashing library, `compare`.
- Joi's e-mail and ISO-date recognisers, `isEmail` and `isIso`.
- The date cast and `parseFloat`, `parseDate` and `parseAmount`.
- The case-insensitive regular-expression match, `searchMatches`.
- Whether `new RegExp(search, "i")` accepts the search text, `validPattern`.
- The page size `API_LIMIT`, passed as `limit`.
- The tag and payment-method lists, `Enums`.

Validation middleware checks a body but does not replace it, so the handlers see the raw values. For example, the signin lookup uses the e-mail as sent, not lower-cased.

If a user has no transactions, `getInsightsData` answers 500. The code destructures `insightsData[0]` with defaults of 0, but the aggregation returns no entry, so the read throws before the defaults apply. The model follows the code.

## Model

| member | source | states |
|---|---|---|
| Text.Trim | src/validation/transactionValidation.joi.js:9 | The trimmed string is empty iff the input is all whitespace. Otherwise it starts and ends with a non-space. Whitespace is the ECMAScript set: tab, vertical tab, form feed, no-break space, BOM, every space separator (U+0020, U+00A0, U+1680, U+2000–U+200A, U+202F, U+205F, U+3000) and the line terminators. |
| Text.TrimIsSlice | src/models/transaction.model.js:15-20 | The trimmed string is a contiguous slice of the input, and everything cut off before and after it is whitespace. |
| Text.TrimIdempotent | src/models/transaction.model.js:15-20 | Trimming twice is trimming once, so a stored trimmed title is unchanged by the store's own trim. |
| Text.UpperFirst | src/controller/transaction.controller.js:145 | Same length. The first character is upper-cased and the rest is unchanged. |
| Text.ToLower | src/validation/authValidation.joi.js:34 | Joi's `lowercase()`: the same length, with each character lower-cased. |
| Text.NatToString | src/controller/transaction.controller.js:506 | The decimal text `${n}`: digits only, with no leading zero. |
| Text.DigitsValueOfNatToString | src/controller/transaction.controller.js:506 | Reading the decimal text back gives the number. |
| Text.NatToStringInjective | src/controller/transaction.controller.js:515 | Different numbers have different decimal texts. |
| Calendar.LastDayOfMonth | src/controller/transaction.controller.js:310-318 | The length of a month, which is the day that day 0 of the next month gives: between 28 and 31. |
| Calendar.DaysInYear | src/controller/transaction.controller.js:310-318 | The twelve month lengths add up to 365 or 366. |
| Calendar.InstantOrder | src/controller/transaction.controller.js:12 | Instant order is the lexicographic order of (year, month, day, ms), and equal instants are equal dates. |
| Calendar.YearStart | src/controller/transaction.controller.js:302 | `new Date(y, 0, 1)`: Jan 1 at 00:00. |
| Calendar.Dec31Midnight | src/controller/transaction.controller.js:19 | `new Date(y, 11, 31)`: Dec 31 at 00:00. |
| Calendar.YearEnd | src/controller/transaction.controller.js:303 | `new Date(y, 11, 31, 23, 59, 59, 999)`. |
| Calendar.MonthStart | src/controller/transaction.controller.js:309 | `new Date(y, m, 1)`: day 1 of the month at 00:00. |
| Calendar.MonthEnd | src/controller/transaction.controller.js:310-318 | `new Date(y, m + 1, 0, 23, 59, 59, 999)`: the month's last day at 23:59:59.999. |
| Calendar.YearWindowExact | src/controller/transaction.controller.js:302-303 | Jan 1 00:00 to Dec 31 23:59:59.999 holds exactly the dates of that year. |
| Calendar.RecentWindowExact | src/controller/transaction.controller.js:18-19 | Jan 1 00:00 to Dec 31 00:00 holds the dates of the year except Dec 31 after midnight. |
| Calendar.MonthWindowExact | src/controller/transaction.controller.js:309-318 | Day 1 00:00 to the last day at 23:59:59.999 holds exactly the valid dates of that month. |
| Aggregation.Where | src/controller/transaction.controller.js:236 | `$match` keeps exactly the elements meeting the predicate, every copy of each, and no more elements than it was given. |
| Aggregation.WhereSnoc | src/controller/transaction.controller.js:236 | Matching a sequence with one more element at the end appends that element when it meets the predicate. |
| Aggregation.WhereSame | src/controller/transaction.controller.js:236 | Two predicates that agree on every element select the same sequence. |
| Aggregation.WhereKeepsOrder | src/controller/transaction.controller.js:11-12 | The matched elements are a subsequence of the input: the store returns them in its own order. |
| Aggregation.GroupSum | src/controller/transaction.controller.js:237-244 | `$group` with `$sum`: distinct keys, the same keys as the input, each key's sum, and the same total. |
| Aggregation.SortDesc | src/controller/transaction.controller.js:255 | `$sort` descending: sorted, and a permutation of the input. |
| Aggregation.SortGroupsDesc | src/controller/transaction.controller.js:285-287 | Sorted by amount, the same groups and keys, still distinct, and the same total. |
| Aggregation.GroupValue | src/controller/transaction.controller.js:290-293 | Each sorted group holds the sum of its key. |
| Aggregation.PeakGroup | src/controller/transaction.controller.js:266 | The first sorted group is a key that occurs, holding its sum, and no key sums to more. |
| Aggregation.Lookup | src/controller/transaction.controller.js:269-271 | `find(...)?.value \|\| 0`: the first group with the key, or 0 when there is none. |
| Aggregation.LookupIsSum | src/controller/transaction.controller.js:269-271 | On distinct groups, the lookup is the key's sum, and 0 for an absent key. |
| Aggregation.ToMap | src/controller/transaction.controller.js:395 | `new Map(entries)` has exactly the keys of the entries. |
| Aggregation.ToMapIsSum | src/controller/transaction.controller.js:395-399 | On distinct groups, the map holds each key's sum. |
| Aggregation.SkipLimit | src/controller/transaction.controller.js:69-70 | `skip(a).limit(n)` is the window of at most n elements starting at a, and empty past the end. |
| Aggregation.SkipLimitSorted | src/controller/transaction.controller.js:209-212 | A window of a sorted sequence is sorted and holds only its elements. |
| Aggregation.SkipLimitContinues | src/controller/transaction.controller.js:69-70 | Consecutive windows concatenate to a longer prefix. |
| Aggregation.OffsetIsProduct | src/controller/transaction.controller.js:70 | The skip of page p is (p - 1) * limit. |
| Aggregation.PagedIsPrefix | src/controller/transaction.controller.js:65-70 | Pages 1 … p read in turn are the first p * limit elements. |
| Aggregation.PrefixDominates | src/controller/transaction.controller.js:11-13 | In a sequence sorted descending, an element outside the first n is no larger than any inside. |
| Request.JoiString | src/validation/transactionValidation.joi.js:9 | A string rule accepts exactly a string that is non-empty after its trim, and yields the trimmed text. |
| Request.RequiredString | src/validation/addTransactionSchema.joi.js:41-43 | A missing key is refused, and an accepted value is a string in the body. |
| TransactionModel.Store | src/models/transaction.model.js:9-51 | A stored record is valid and carries the body's user, amount, trimmed title, cast date, tag and payment method, and the trimmed description text when one is given. |
| TransactionModel.ValidTransaction | src/models/transaction.model.js:9-51 | What every stored record satisfies: an owner, a trimmed title of 1 to 100 characters, an optional trimmed description of at most 5000, an amount in [1, 1e6], and a listed tag and payment method. |
| TransactionModel.StoreRules | src/models/transaction.model.js:9-51 | The store's field rules on the raw body, one conjunct per schema path. |
| TransactionModel.TrimmedField | src/models/transaction.model.js:15-20 | A title is present iff it is a string that is non-empty after trimming. It is then the trimmed text, which a second trim leaves unchanged. |
| TransactionModel.DescriptionField | src/models/transaction.model.js:21-25 | A missing or null description is no description. A string is trimmed. Any other value is refused. |
| TransactionModel.DateField | src/models/transaction.model.js:32-35 | A date is present iff it is a string the date cast accepts, and it is then the cast's value. |
| TransactionModel.StoreAcceptsIff | src/models/transaction.model.js:9-51 | The store accepts a body iff it has a non-empty user, a trimmed title of 1 to 100 characters, an optional description of at most 5000 trimmed characters, an amount in [1, 1e6], a date the cast accepts, and a listed tag and payment method. |
| TransactionSchemas.WiredSchemaNeverStores | src/validation/transactionValidation.joi.js:8-41 | No body the applied schema accepts can be stored: it has no `user`, and the store requires one. |
| TransactionSchemas.WiredAddTransactionAccepts | src/validation/transactionValidation.joi.js:8-41 | The applied schema: only its six declared keys, and each key's rule. |
| TransactionSchemas.LegacyAddTransactionAccepts | src/validation/addTransactionSchema.joi.js:8-44 | The older schema: its seven declared keys, including a required user, and each key's rule. |
| TransactionSchemas.IntendedAddTransactionAccepts | src/validation/addTransactionSchema.joi.js:8-44 | The evidently intended schema: the applied one with a required user and the store's amount bound. |
| TransactionSchemas.TitleRule | src/validation/transactionValidation.joi.js:9 | A required string of 1 to 100 characters after trimming. |
| TransactionSchemas.WiredDescriptionRule | src/validation/transactionValidation.joi.js:14 | An optional string, possibly empty, of at most 5000 characters after trimming. |
| TransactionSchemas.LegacyDescriptionRule | src/validation/addTransactionSchema.joi.js:14 | An optional string, non-empty after trimming, of at most 5000 characters. |
| TransactionSchemas.AmountRule | src/validation/transactionValidation.joi.js:17 | A required number from 1 up to the schema's maximum. |
| TransactionSchemas.OneOfRule | src/validation/transactionValidation.joi.js:23-29 | A required string that is one of the listed values. |
| TransactionSchemas.IsoDateRule | src/validation/transactionValidation.joi.js:30-33 | A required ISO 8601 date string. |
| TransactionSchemas.UserRule | src/validation/addTransactionSchema.joi.js:41-43 | A required non-empty string. |
| TransactionSchemas.AmountBoundsDisagree | src/models/transaction.model.js:26-31 | An amount in (1e6, 1e9] passes the applied schema and is refused by the store. |
| TransactionSchemas.IntendedSchemaStores | src/validation/addTransactionSchema.joi.js:8-44 | Every body the intended schema accepts (owner required, store's amount bound) is stored. |
| TransactionSchemas.LegacyRefinesIntended | src/validation/addTransactionSchema.joi.js:14-17 | The older schema, which also refuses an empty description, accepts only what the intended one accepts. |
| AuthSchemas.SignupPasswordPassesSignin | src/validation/authValidation.joi.js:14-18 | A password accepted at signup passes the signin rule, which only asks for a non-empty string. |
| AuthSchemas.SignupAccepts | src/validation/authValidation.joi.js:4-30 | Only the four declared keys, and the name, e-mail, password and confirmation rules. |
| AuthSchemas.NameRule | src/validation/authValidation.joi.js:5 | A required string of 5 to 50 characters after trimming. |
| AuthSchemas.SignupEmailRule | src/validation/authValidation.joi.js:10 | A required string that, trimmed, is an e-mail address. |
| AuthSchemas.SignupPasswordRule | src/validation/authValidation.joi.js:14-18 | A required, untrimmed string of 6 to 128 characters matching the pattern. |
| AuthSchemas.PasswordPattern | src/validation/authValidation.joi.js:18 | One line of at least one character with a lower-case letter, an upper-case letter, a digit and one of !@#$%^&*. |
| AuthSchemas.ConfirmRule | src/validation/authValidation.joi.js:26 | A required value equal to the password. |
| AuthSchemas.SigninAccepts | src/validation/authValidation.joi.js:33-41 | Only e-mail and password, an e-mail rule on the lower-cased trimmed text, and a non-empty password string. |
| AuthSchemas.SigninEmailRule | src/validation/authValidation.joi.js:34 | A string that, lower-cased and trimmed, is an e-mail address. |
| AuthSchemas.VerifyOtpAccepts | src/validation/authValidation.joi.js:44-57 | Only userId and otp, a non-empty userId string, and the code rule. |
| AuthSchemas.OtpRule | src/validation/authValidation.joi.js:48-51 | Exactly 6 characters, all decimal digits. |
| AuthSchemas.ResendOtpAccepts | src/validation/authValidation.joi.js:60-64 | Only userId, as a non-empty string. |
| AuthSchemas.SigninPair | src/validation/authValidation.joi.js:33-42 | An e-mail whose lower-cased, trimmed form is accepted, with any non-empty password string, passes the signin schema. |
| AuthSchemas.ToLowerIdempotent | src/validation/authValidation.joi.js:34 | Lower-casing twice is lower-casing once. |
| AuthSchemas.SigninEmailIgnoresCase | src/validation/authValidation.joi.js:34-38 | The signin e-mail rule accepts an address iff it accepts its lower-cased form. |
| AuthSchemas.CodePassesVerify | src/validation/authValidation.joi.js:44-57 | A six-digit code, with a user id, passes the verification schema. |
| OtpModel.IssueOtp | src/controller/auth.controller.js:68-73 | A new record: given user and code, 0 attempts, not expired 5 minutes after issue, expired 1 ms later. |
| OtpModel.ValidOtpRecord | src/models/otp.model.js:10-23 | A stored code is non-empty and has at most 5 attempts. |
| OtpModel.IsExpired | src/controller/auth.controller.js:178 | A code is expired only when the clock is strictly past its expiry time. |
| OtpModel.PurgeExpired | src/models/otp.model.js:14-18 | The TTL purge keeps exactly the records not yet past their expiry, every copy of each, in their original order. |
| Auth.Status | src/controller/auth.controller.js:26-283 | A 2xx answer exactly for the four successes, and 500 exactly for an internal error. |
| Auth.UniqueEmails | src/models/user.model.js:10-14 | No two users hold the same e-mail. |
| Auth.Inv | src/models/user.model.js:10-14 | E-mails are unique, and every OTP record names an existing user and keeps its schema's limits. |
| Auth.FindByEmail | src/controller/auth.controller.js:30 | `findOne({ email })`: an index holding the e-mail, or none iff no user holds it. |
| Auth.LatestOtp | src/controller/auth.controller.js:168 | The latest record of the user: theirs, with no later record of theirs, or none iff they have none. |
| Auth.Upsert | src/controller/auth.controller.js:46-58 | An unverified user with the e-mail is overwritten in place with the new name and password, keeping its verified flag and last login. Otherwise a new user is appended with the login time. No other user changes, and e-mails stay unique. |
| Auth.SignupStep | src/controller/auth.controller.js:26-91 | 409 iff a verified user holds the e-mail, and then nothing changes. Otherwise the unverified user is overwritten or a new one appended, then the code is stored when the mail goes out, or 500. No account becomes verified, and the invariant is kept. |
| Auth.SigninStep | src/controller/auth.controller.js:93-144 | 404 iff the e-mail is unknown. 401 on a wrong password, 400 for an unverified user. Success iff the password matches a verified user, and then only that user's lastLogin changes. Every failure changes nothing. |
| Auth.VerifyStep | src/controller/auth.controller.js:146-230 | Checks in order: user 404, verified 400, no code 404, strictly expired 400, 5 attempts 400. A submission that gets past them counts one attempt. A wrong code is 400. Only a matching code verifies, and it changes nothing else. A matching code whose welcome mail fails still verifies and answers 500. Every other path changes nothing. |
| Auth.ResendStep | src/controller/auth.controller.js:232-283 | 404 and 400 change nothing. For an unverified user, a failed mail answers 500. Success appends a fresh record, which becomes the user's latest, and the invariant is kept. |
| Auth.ExpireStep | src/models/otp.model.js:14-18 | The TTL monitor keeps the users, keeps exactly the unexpired records, in order and with every copy, and keeps the invariant. A user whose latest code is live keeps that code as the latest. |
| Auth.LiveLatest | src/models/otp.model.js:14-18 | The user has a latest code and it is not expired. |
| Auth.PurgeKeepsLiveLatest | src/controller/auth.controller.js:168 | Purging expired records does not change which record is the latest of a user whose latest is live. |
| Auth.CountingSpendsBudget | src/controller/auth.controller.js:185-192 | A submission that is counted spends exactly one of the latest code's five attempts. |
| Auth.LatestOtpAfterCount | src/controller/auth.controller.js:185-200 | Counting a submission does not change which record is any user's latest. |
| Auth.AtMostFiveComparisons | src/controller/auth.controller.js:185-192 | Over any series of verification requests, at most 5 codes are compared against one stored code. |
| Auth.ResendRestoresBudget | src/controller/auth.controller.js:265-270 | After a resend, the new code verifies the account at any time up to its expiry. |
| Auth.PurgeRemovesExpiredBranch | src/models/otp.model.js:14-18 | Right after the TTL monitor runs, no request meets an expired code. |
| Auth.VerifiedIsFinal | src/controller/auth.controller.js:159-165 | Once verified: verifyOTP and resendOTP answer "already verified", and signup with the e-mail answers 409. |
| Auth.AuthService.constructor | src/models/user.model.js:4-34 | Empty collections, which satisfy the invariant. |
| Auth.AuthService.Signup | src/controller/auth.controller.js:26-91 | Updates the collections in place exactly as SignupStep, and keeps the invariant. |
| Auth.AuthService.Signin | src/controller/auth.controller.js:93-144 | Updates the collections in place exactly as SigninStep, and keeps the invariant. |
| Auth.AuthService.VerifyOtp | src/controller/auth.controller.js:146-230 | Updates the collections in place exactly as VerifyStep, and keeps the invariant. |
| Auth.AuthService.ResendOtp | src/controller/auth.controller.js:232-283 | Updates the collections in place exactly as ResendStep, and keeps the invariant. |
| Auth.AuthService.ExpireOtps | src/models/otp.model.js:14-18 | Deletes the expired records in place, exactly as ExpireStep, and keeps the invariant. |
| Transactions.ChartTotalAdd | src/controller/transaction.controller.js:41 | Adding v to one slot adds v to the chart's total. |
| Transactions.Pairs | src/controller/transaction.controller.js:237-244 | One (key, amount) pair per transaction, in order. |
| Transactions.TotalOfPairs | src/controller/transaction.controller.js:240 | The pairs add up to what the transactions spent. |
| Transactions.Owned | src/controller/transaction.controller.js:11 | `find({ user })` keeps exactly the user's transactions, every copy of each, in store order. |
| Transactions.NewestFirst | src/controller/transaction.controller.js:12 | Sorted newest first, and a permutation of its input. |
| Transactions.RecentList | src/controller/transaction.controller.js:11-13 | The min(15, n) newest of the user's n transactions, newest first, taken with their copies from the user's transactions. A transaction of the user's is left out only when 15 are listed, and it is no newer than any listed one. |
| Transactions.ConstructorYear | src/controller/transaction.controller.js:18-19 | `new Date(year, …)` reads a year from 0 to 99 as 1900 to 1999, and any other year as itself. |
| Transactions.RecentWindow | src/controller/transaction.controller.js:15-21 | Exactly the user's transactions of the year (0..99 read as 1900..1999), except Dec 31 after 00:00, every copy of each. |
| Transactions.InRecentYear | src/controller/transaction.controller.js:15-21 | The transaction's date falls in the recent window: the requested year, read as the Date constructor reads it, up to Dec 31 at 00:00. |
| Transactions.MonthChartTotal | src/controller/transaction.controller.js:39-42 | A 12-slot chart of month sums adds up to the window's spending. |
| Transactions.ZeroChartTotal | src/controller/transaction.controller.js:24-37 | A chart of zeros totals 0. |
| Transactions.MonthChart | src/controller/transaction.controller.js:24-42 | The loop yields 12 points labelled Jan … Dec in order. Each is its month's sum, and together they total the window's spending. |
| Transactions.GetRecentTransactions | src/controller/transaction.controller.js:7-58 | The month chart of the recent window, and the recent list. |
| Transactions.Page | src/controller/transaction.controller.js:65-70 | 500 iff limit > 0 and page < 1 (negative skip). With a limit of 0, everything newest first. Otherwise at most limit records. |
| Transactions.PageIsWindow | src/controller/transaction.controller.js:69-70 | Page p is the newest-first window starting at (p - 1) * limit. |
| Transactions.PagesCoverAll | src/controller/transaction.controller.js:65-70 | Pages 1 … p are the p * limit newest records, and once those cover the records, each record appears exactly once. |
| Transactions.PageSorted | src/controller/transaction.controller.js:209-212 | A page is newest first and holds only records it was given. |
| Transactions.GetAllTransactions | src/controller/transaction.controller.js:60-83 | A page of the user's transactions, newest first, all the user's. |
| Transactions.BuildFilter | src/controller/transaction.controller.js:183-207 | 500 iff the search text is not a valid regular expression or a given bound does not convert. The filter always has the user, and each condition only for a truthy parameter. The filter selects exactly the transactions the parameters ask for. |
| Transactions.FromParamsSelects | src/controller/transaction.controller.js:183-207 | A filter built from the parameters matches a transaction iff the transaction has the user's id and meets every condition whose parameter is truthy. |
| Transactions.GetFilteredTransactions | src/controller/transaction.controller.js:168-225 | 500 iff an invalid search pattern, a bad bound, or a page below 1 with a positive limit. Otherwise the page of the store's selected transactions, newest first, at skip (page - 1) * limit: every result is in the store and selected, and at most limit. |
| Transactions.Truthy | src/controller/transaction.controller.js:185 | A query parameter is truthy when it is present and non-empty. |
| Transactions.BadBound | src/controller/transaction.controller.js:199-206 | A truthy date or amount parameter whose text does not convert. |
| Transactions.BadPattern | src/controller/transaction.controller.js:185-186 | A truthy search text that `new RegExp` refuses, so the handler throws. |
| Transactions.BadParams | src/controller/transaction.controller.js:183-207 | A bad search pattern or any bad bound. |
| Transactions.Matches | src/controller/transaction.controller.js:183-209 | What `find(filter)` selects: the user's id, the search in title, description or tag, and each given tag, payment method, date bound and amount bound. |
| Transactions.Selected | src/controller/transaction.controller.js:183-207 | The selection asked for by the parameters themselves: the user's transactions meeting every truthy parameter. |
| Transactions.SelectedFn | src/controller/transaction.controller.js:183-207 | Selected as a predicate on transactions, the argument the result is matched with. |
| Transactions.NamedOptions | src/controller/transaction.controller.js:143-151 | Same length and order. The id is the value, and the name is the value with its first character upper-cased. |
| Transactions.TagsAndPaymentMethods | src/controller/transaction.controller.js:136-165 | Both lists keep the enums' lengths, order and ids, and each name is its value with the first character upper-cased. |
| Transactions.LargestAmount | src/controller/transaction.controller.js:242 | `$max`: an amount that occurs, and no amount is larger. |
| Transactions.TagBreakdown | src/controller/transaction.controller.js:274-296 | One entry per tag of the window, holding that tag's sum, largest first, totalling the window's spending. |
| Transactions.YearWindow | src/controller/transaction.controller.js:299-305 | Exactly the transactions of the year, every copy of each. |
| Transactions.MonthWindow | src/controller/transaction.controller.js:306-320 | For valid dates, exactly the transactions of that month, every copy of each. |
| Transactions.YearlySums | src/controller/transaction.controller.js:247-257 | The sorted per-year groups hold every year's sum, and 0 for a year without transactions. |
| Transactions.PeakYear | src/controller/transaction.controller.js:247-266 | `yearlySpent[0]`: a year that occurs, holding that year's sum, and no year sums to more. |
| Transactions.YearSpent | src/controller/transaction.controller.js:247-271 | The lookup of a year among the sorted yearly groups is that year's sum, and 0 when it has no transaction. |
| Transactions.OverviewOf | src/controller/transaction.controller.js:235-271 | Count, total and maximum of the owned transactions. The peak year occurs and no year sums to more than its sum. The current year's sum, or 0 when it has none. |
| Transactions.GetInsights | src/controller/transaction.controller.js:228-339 | 500 iff the user has no transaction. Otherwise the overview, and the tag breakdowns of all time, the current year and the current month. |
| InsightCharts.MonthlyAgg | src/controller/transaction.controller.js:362-380 | `$group` by `$month`: distinct month numbers holding each month's sum. |
| InsightCharts.DenseMonths | src/controller/transaction.controller.js:381-399 | 12 points labelled Jan … Dec, each holding the map's value for month number idx + 1, or 0 when absent. |
| InsightCharts.MonthNumberSum | src/controller/transaction.controller.js:373 | Summing by `$month` (1..12) is summing by month index. |
| InsightCharts.DenseMonthsAgree | src/controller/transaction.controller.js:395-399 | The dense series holds each month's sum, the same values as the 12-slot chart. |
| InsightCharts.DenseMonthAgrees | src/controller/transaction.controller.js:395-399 | The dense series' slot for a month holds that month's sum. |
| InsightCharts.MonthlyData | src/controller/transaction.controller.js:361-399 | 12 points, in calendar order, of the year's month sums. |
| InsightCharts.Trend | src/controller/transaction.controller.js:524-556 | Two series, "This Year" and "Last Year", each 12 month sums of its year. |
| InsightCharts.YearLabel | src/controller/transaction.controller.js:357 | `String(year)` is the decimal text of a non-negative year. |
| InsightCharts.SortKeepsGroups | src/controller/transaction.controller.js:354 | Sorting distinct groups keeps them distinct, keeps the keys, and keeps each key's sum. |
| InsightCharts.YearlyGroups | src/controller/transaction.controller.js:346-355 | One group per year with transactions, holding its sum, in strictly increasing year order. |
| InsightCharts.YearlyData | src/controller/transaction.controller.js:356-359 | Each yearly group becomes a point labelled with its year and holding that year's sum. |
| InsightCharts.Capitalize | src/controller/transaction.controller.js:424-425 | The empty tag becomes "Other". Any other tag has its first character upper-cased. |
| InsightCharts.CapitalizeAgreesWithNames | src/controller/transaction.controller.js:145 | For a listed tag, the category text is its name in the tag list. |
| InsightCharts.TagColor | src/controller/transaction.controller.js:412-429 | A known tag's colour, and otherwise the colour of "other". |
| InsightCharts.CategoryData | src/controller/transaction.controller.js:426-430 | One point per group, in the same order, with capitalised text and colour. A breakdown sorted largest first stays sorted. |
| InsightCharts.BucketOf | src/controller/transaction.controller.js:493-503 | `$bucket`: an amount in [b_i, b_i+1) goes to b_i. Amounts from 100000 up to MAX_SAFE_INTEGER go to 100000. A negative or larger amount goes to the default bucket. |
| InsightCharts.RangeIndex | src/controller/transaction.controller.js:498 | The last boundary at or below a non-negative amount. |
| InsightCharts.BoundaryShapes | src/controller/transaction.controller.js:492 | Each boundary after 0 is a digit from 1 to 9 times a power of ten. |
| InsightCharts.ShiftedText | src/controller/transaction.controller.js:506 | `${n * 10^k}` is the text of n followed by k zeros. |
| InsightCharts.BoundaryStringShapes | src/controller/transaction.controller.js:492 | Each boundary's literal text is its digit followed by its zeros. |
| InsightCharts.RangeLabelShape | src/controller/transaction.controller.js:506 | The label of two boundaries of the form d * 10^k is each one's digit and zeros, joined by "-". |
| InsightCharts.LastBoundaryText | src/controller/transaction.controller.js:508 | `${100000}` is "100000". |
| InsightCharts.TopLabelText | src/controller/transaction.controller.js:508 | The label pushed after the loop is "100000+". |
| InsightCharts.LabelsComplete | src/controller/transaction.controller.js:505-508 | The eight range labels followed by the last boundary's "+" label are the nine histogram labels. |
| InsightCharts.LabelsFromStrings | src/controller/transaction.controller.js:504-508 | The label texts are the boundary texts joined by "-", and the last boundary followed by "+". |
| InsightCharts.RangeLabelText | src/controller/transaction.controller.js:506 | Each range label equals its literal text. |
| InsightCharts.DistributionLabels | src/controller/transaction.controller.js:504-508 | The loop yields "0-500" … "50000-100000" and then "100000+". |
| InsightCharts.IndexOf | src/controller/transaction.controller.js:511 | `indexOf`: a position holding the boundary, or -1 iff it is not a boundary. |
| InsightCharts.EntryLabelAsWritten | src/controller/transaction.controller.js:509-516 | The default bucket is "100000+", a range bucket its range label, and any other id its decimal text, so the bucket of 100000 is "100000". |
| InsightCharts.EntryLabelFixed | src/controller/transaction.controller.js:509-516 | As written, except that the bucket of 100000 is filed under "100000+". |
| InsightCharts.Histogram | src/controller/transaction.controller.js:517-521 | One bar per label, in label order. |
| InsightCharts.Amounts | src/controller/transaction.controller.js:497 | The amounts the buckets group, one per transaction. |
| InsightCharts.DistributionAsWritten | src/controller/transaction.controller.js:492-521 | The histogram of the amounts with the mapping as written. |
| InsightCharts.Distribution | src/controller/transaction.controller.js:492-521 | The histogram of the amounts with the corrected mapping. |
| InsightCharts.LabelsDiffer | src/controller/transaction.controller.js:504-508 | Two different positions hold different labels. |
| InsightCharts.LabelsDistinct | src/controller/transaction.controller.js:504-508 | The nine labels are pairwise different. |
| InsightCharts.FixedLabelIsOneOfTheLabels | src/controller/transaction.controller.js:509-516 | Under the corrected mapping, every amount is filed under one of the labels. |
| InsightCharts.LargeAmountUnlabelled | src/controller/transaction.controller.js:509-516 | As written, an amount in [100000, MAX_SAFE_INTEGER) is filed under "100000", which is not a label. |
| InsightCharts.DistributionDropsLargeAmounts | src/controller/transaction.controller.js:509-521 | As written, a single transaction of 150000 leaves every bar at 0. |
| InsightCharts.Chart | src/controller/transaction.controller.js:517-520 | One point per label, in label order, holding the number of amounts filed under that label. |
| InsightCharts.ChartStep | src/controller/transaction.controller.js:509-520 | On distinct labels, one more amount raises only the bar of its own label, by one. |
| InsightCharts.ChartCountsAll | src/controller/transaction.controller.js:509-521 | On distinct labels that every amount is filed under, the bars add up to the number of amounts. |
| InsightCharts.HistogramTotalAll | src/controller/transaction.controller.js:509-521 | Under the corrected mapping, the bars add up to the number of amounts. |
| InsightCharts.DistributionCountsAll | src/controller/transaction.controller.js:492-521 | Under the corrected mapping, every transaction is counted once. |
| InsightCharts.SameLabelOnRanges | src/controller/transaction.controller.js:512-515 | An amount is filed under a range label by the corrected mapping iff it is filed there as written. |
| InsightCharts.DistributionRangesUnchanged | src/controller/transaction.controller.js:512-514 | The correction changes only the last bar, and the eight range bars are as written. |

## Left out

- JWT signing and the token in the answers (src/controller/auth.controller.js:20-24), and the logout handler, which only answers 200.
- E-mail content and delivery: the mail service is a `mailDelivered` parameter, and the templates are presentation.
- Password hashing: the save hook's bcrypt hash is not modelled. The stored password stands for its hash, and `comparePassword` is the `compare` parameter.
- `generateOTP` (src/utils/Number.js), `API_LIMIT` (src/constants/API.js) and the tag and payment-method lists (src/constants/enums.js) are not part of this model, so they are parameters.
- Object ids: a user is its index in the user collection, and an OTP record names that index. A malformed id makes `findById` throw, which answers 500; the model answers 404 for an index out of range. `toObjectId` (src/utils/mongoose.js) is not part of this model.
- Auth.LatestOtp: the model takes the latest record to be the last one appended, because records are created in time order. It does not model equal `createdAt` stamps.
- Auth.ExpireStep: the TTL monitor runs in the background at times of its own. The model makes it an explicit step, so the time between expiry and deletion is not modelled.
- Auth.Inv: unique e-mails rest on the unique index and on no concurrent signup for the same e-mail. Concurrent requests are not modelled.
- Floating point: amounts are integers. `parseFloat` and the date cast are the `parseAmount` and `parseDate` parameters, and float rounding and NaN are not modelled.
- Time zones: dates are calendar tuples. Local `getMonth`/`getFullYear` and the UTC `$year`/`$month` are taken to agree.
- Query parameters that are absent or not numbers (`_id`, `page`, `year`): `page` is an integer, so `(undefined - 1) * limit` (NaN) is not modelled, and `year` is an integer.
- Joi conversions: the schemas are predicates, and the handlers receive the raw body. Joi's e-mail and ISO-date grammars are the `isEmail` and `isIso` parameters, and Joi's number coercion from numeric strings is not modelled.
- addTransaction and deleteTransaction write to the store. The model states what `Transaction.create` accepts (TransactionModel.Store), but does not model the insert or the delete.
- The routes, the validation middleware and the database connection: wiring only. src/routes/transaction.router.js imports handlers the controller does not export.
- The legacy expense controller, model and router: not part of the core.
- InsightCharts: the helpers after the `return` read an undefined `currentYearForCharts`, so they would throw before finishing if reached. Each is modelled on its own, with the year as a parameter.
- InsightCharts.Trend: the two years are computed one after the other, not with `Promise.all`.
- InsightCharts.TagColor: inherited object keys (`tagColorMap["constructor"]`) are not modelled. A tag is looked up only among the ten listed keys.
- InsightCharts.Capitalize: only the empty tag is falsy here. A missing (`null`) tag cannot occur, because the store requires one.
- InsightCharts.YearLabel: it is stated only for years from 0 up. A negative year's text is written out but not proved.
- Transactions.MonthWindow: it is exact only for valid calendar dates, as its contract states.
- Transactions.PagesCoverAll: the pages are taken to read one fixed order of the sorted records. The store sorts on `transactionDateTime` alone and runs a new query for each page, and it does not promise the same order among records with equal dates from one query to the next. Tied records can then repeat across pages or be skipped, which the model does not capture.
- Transactions.RecentWindow: the recent chart's window as written is kept in the model of the handler (see Findings).
- Text lengths: JavaScript counts string length in UTF-16 code units, and the model counts characters. The two differ for characters outside the Basic Multilingual Plane, which count twice in JavaScript. The limits affected are listed below.
- TransactionModel.StoreRules: the title limit of 100 and the description limit of 5000 are stated in characters, not UTF-16 code units.
- TransactionSchemas.TitleRule: the limit of 100 is stated in characters, not UTF-16 code units. The same holds for the 5000 of TransactionSchemas.WiredDescriptionRule and TransactionSchemas.LegacyDescriptionRule.
- AuthSchemas.NameRule: the bounds 5 to 50 are stated in characters, not UTF-16 code units.
- AuthSchemas.SignupPasswordRule: the bounds 6 to 128 are stated in characters, not UTF-16 code units.
- AuthSchemas.OtpRule: the length 6 is stated in characters. A six-digit code is six code units in both readings.
- Text.ToLower: case mapping covers ASCII letters only. JavaScript's full Unicode mapping is not modelled. That mapping changes other letters, and some of them change length, e.g. "ß" upper-cases to "SS". The same holds for Text.UpperFirst.
- TransactionModel.StoreAcceptsIff: the equivalence is stated for bodies whose values already have the schema's JSON types. Mongoose casts values before it validates, and those casts are not modelled: a numeric string or a boolean to a Number, a number or a boolean to a String, and a number to a Date.

## Findings

| source | as written | input that shows it | evidently intended | confidence | as-written member | corrected member |
|---|---|---|---|---|---|---|
| src/controller/transaction.controller.js:509-516 | The bucket of the last boundary has the numeric id 100000, which maps to the label "100000". That is not one of the histogram labels, so its count is dropped. The defect is latent: this code comes after the handler's `return` at line 322, so it never runs, and if it were reached it would first throw on the undefined `currentYearForCharts` at line 368. | One transaction with amount 150000: every bar of distributionData is 0. | That bucket is counted under "100000+", so every transaction lands in one bar. | not executed; high | InsightCharts.DistributionDropsLargeAmounts | InsightCharts.DistributionCountsAll |
| src/validation/transactionValidation.joi.js:8-41 | The applied add-transaction schema declares no `user`, and Joi refuses undeclared keys. A body it accepts therefore has no owner, and the store's required `user` refuses it. | Any body the schema accepts, e.g. a valid title, amount, tag, date and payment method: Transaction.create fails, so 500. A body with `user` gets 400. | The owner is declared and required, and the amount is bounded as the store bounds it (the older schema in src/validation/addTransactionSchema.joi.js). | not executed; high | TransactionSchemas.WiredSchemaNeverStores | TransactionSchemas.IntendedSchemaStores |
| src/controller/transaction.controller.js:18-19 | The recent chart's window ends at `new Date(year, 11, 31)`, which is Dec 31 at 00:00. | A transaction on Dec 31 at 12:00 is missing from the December slot. | The window ends at Dec 31 23:59:59.999, as the insights windows at line 303 do. | not executed; medium | Calendar.RecentWindowExact | Calendar.YearWindowExact |

=== FILE: aggregation.dfy ===
/**
 * The parts of the document store's query language the handlers rely on,
 * restated as functions over a sequence of records: `$match`/`find` (Where),
 * `$group` with `$sum` (GroupSum), `$sort` descending (SortDesc) and
 * `skip`/`limit` (SkipLimit). A group is a pair (key, summed amount).
 */
module Aggregation {

  // ---------------------------------------------------------------- $match

  /**
   * The records that satisfy p, in store order: every copy of a record that
   * satisfies p and none of the others, keeping their order.
   */
  function Where<T(!new)>(s: seq<T>, p: T -> bool): (r: seq<T>)
    ensures |r| <= |s|
    ensures forall x :: x in r <==> x in s && p(x)
    ensures forall x :: multiset(r)[x] == if p(x) then multiset(s)[x] else 0
  {
    if s == [] then [] else
      var init, last := s[..|s| - 1], s[|s| - 1];
      assert s == init + [last];
      Where(init, p) + (if p(last) then [last] else [])
  }

  /** Selecting from s followed by x: x is kept at the end exactly when it satisfies p. */
  lemma WhereSnoc<T(!new)>(s: seq<T>, x: T, p: T -> bool)
    ensures Where(s + [x], p) == Where(s, p) + (if p(x) then [x] else [])
  {
    assert (s + [x])[..|s|] == s;
  }

  /** Two predicates that agree on every record select the same records. */
  lemma {:induction false} WhereSame<T(!new)>(s: seq<T>, p: T -> bool, q: T -> bool)
    requires forall x :: p(x) == q(x)
    ensures Where(s, p) == Where(s, q)
  {
    if s != [] {
      WhereSame(s[..|s| - 1], p, q);
    }
  }

  /** r is s with some elements left out, the rest in the same order. */
  predicate IsSubsequence<T(==)>(r: seq<T>, s: seq<T>) {
    if r == [] then true
    else if s == [] then false
    else (r[|r| - 1] == s[|s| - 1] && IsSubsequence(r[..|r| - 1], s[..|s| - 1])) || IsSubsequence(r, s[..|s| - 1])
  }

  /** Where keeps the selected records in their store order. */
  lemma {:induction false} WhereKeepsOrder<T(!new)>(s: seq<T>, p: T -> bool)
    ensures IsSubsequence(Where(s, p), s)
  {
    if s != [] {
      var init, last := s[..|s| - 1], s[|s| - 1];
      var rest := Where(init, p);
      WhereKeepsOrder(init, p);
      if p(last) {
        assert (rest + [last])[..|rest|] == rest;
      } else if rest != [] {
        assert Where(s, p) == rest;
      }
    }
  }

  // ---------------------------------------------------------------- sums

  /** The sum of the amounts of the pairs. */
  function Total<K>(s: seq<(K, int)>): int {
    if s == [] then 0 else Total(s[..|s| - 1]) + s[|s| - 1].1
  }

  lemma {:induction false} TotalConcat<K>(a: seq<(K, int)>, b: seq<(K, int)>)
    ensures Total(a + b) == Total(a) + Total(b)
  {
    if b == [] {
      assert a + b == a;
    } else {
      assert (a + b)[..|a + b| - 1] == a + b[..|b| - 1];
      assert (a + b)[|a + b| - 1] == b[|b| - 1];
      TotalConcat(a, b[..|b| - 1]);
    }
  }

  /** The sum of the amounts of the pairs whose key is k. */
  function SumOf<K(==)>(s: seq<(K, int)>, k: K): int {
    if s == [] then 0 else SumOf(s[..|s| - 1], k) + (if s[|s| - 1].0 == k then s[|s| - 1].1 else 0)
  }

  predicate HasKey<K(==)>(s: seq<(K, int)>, k: K) {
    exists i :: 0 <= i < |s| && s[i].0 == k
  }

  predicate DistinctKeys<K(==)>(s: seq<(K, int)>) {
    forall i, j :: 0 <= i < j < |s| ==> s[i].0 != s[j].0
  }

  lemma HasKeySnoc<K>(s: seq<(K, int)>, x: (K, int), k: K)
    ensures HasKey(s + [x], k) <==> HasKey(s, k) || x.0 == k
  {
    if HasKey(s, k) {
      var i :| 0 <= i < |s| && s[i].0 == k;
      assert (s + [x])[i].0 == k;
    }
    if x.0 == k {
      assert (s + [x])[|s|].0 == k;
    }
  }

  lemma SnocKeys<K>(s: seq<(K, int)>, x: (K, int))
    ensures forall k :: HasKey(s + [x], k) <==> HasKey(s, k) || x.0 == k
  {
    forall k ensures HasKey(s + [x], k) <==> HasKey(s, k) || x.0 == k { HasKeySnoc(s, x, k); }
  }

  lemma DistinctSnoc<K>(s: seq<(K, int)>, x: (K, int))
    ensures DistinctKeys(s + [x]) <==> DistinctKeys(s) && !HasKey(s, x.0)
  {
    var t := s + [x];
    if HasKey(s, x.0) {
      var i :| 0 <= i < |s| && s[i].0 == x.0;
      assert t[i].0 == t[|s|].0;
    }
    if DistinctKeys(t) {
      assert forall i, j :: 0 <= i < j < |s| ==> s[i] == t[i] && s[j] == t[j];
    }
  }

  /** A key that does not occur sums to zero. */
  lemma {:induction false} SumOfAbsent<K>(s: seq<(K, int)>, k: K)
    requires !HasKey(s, k)
    ensures SumOf(s, k) == 0
  {
    if s != [] {
      var s' := s[..|s| - 1];
      assert s == s' + [s[|s| - 1]];
      HasKeySnoc(s', s[|s| - 1], k);
      SumOfAbsent(s', k);
    }
  }

  /** In a list of groups with distinct keys, the sum for a group's key is that group's amount. */
  lemma {:induction false} SumOfDistinct<K>(g: seq<(K, int)>, i: int)
    requires DistinctKeys(g) && 0 <= i < |g|
    ensures SumOf(g, g[i].0) == g[i].1
  {
    var g' := g[..|g| - 1];
    if i == |g| - 1 {
      assert !HasKey(g', g[i].0);
      SumOfAbsent(g', g[i].0);
    } else {
      SumOfDistinct(g', i);
    }
  }

  // ---------------------------------------------------------------- $group

  /** Adds v to the group for k, opening a new group at the end when there is none. */
  function Accumulate<K(==,!new)>(g: seq<(K, int)>, k: K, v: int): (r: seq<(K, int)>)
    ensures forall k' :: SumOf(r, k') == SumOf(g, k') + (if k' == k then v else 0)
    ensures forall k' :: HasKey(r, k') <==> HasKey(g, k') || k' == k
    ensures DistinctKeys(g) ==> DistinctKeys(r)
    ensures Total(r) == Total(g) + v
  {
    if g == [] then
      var r := [(k, v)];
      assert forall k' :: HasKey(r, k') <==> k' == k by {
        forall k' | k' == k ensures HasKey(r, k') { assert r[0].0 == k'; }
      }
      r
    else
      var g', last := g[..|g| - 1], g[|g| - 1];
      assert g == g' + [last];
      if last.0 == k then
        var r := g' + [(k, last.1 + v)];
        assert r[..|r| - 1] == g';
        SnocKeys(g', (k, last.1 + v));
        SnocKeys(g', last);
        DistinctSnoc(g', last);
        DistinctSnoc(g', (k, last.1 + v));
        r
      else
        var a := Accumulate(g', k, v);
        var r := a + [last];
        assert r[..|r| - 1] == a;
        SnocKeys(a, last);
        SnocKeys(g', last);
        DistinctSnoc(g', last);
        DistinctSnoc(a, last);
        r
  }

  /**
   * `$group` by key with `$sum` of the amount: one group per key that occurs,
   * holding the sum of that key's amounts.
   */
  function GroupSum<K(==,!new)>(s: seq<(K, int)>): (r: seq<(K, int)>)
    ensures DistinctKeys(r)
    ensures forall k :: HasKey(r, k) <==> HasKey(s, k)
    ensures forall k :: SumOf(r, k) == SumOf(s, k)
    ensures Total(r) == Total(s)
  {
    if s == [] then []
    else
      var s', last := s[..|s| - 1], s[|s| - 1];
      assert s == s' + [last];
      var r := Accumulate(GroupSum(s'), last.0, last.1);
      assert forall k :: HasKey(s, k) <==> HasKey(s', k) || last.0 == k by {
        forall k ensures HasKey(s, k) <==> HasKey(s', k) || last.0 == k { HasKeySnoc(s', last, k); }
      }
      r
  }

  /** Each group of GroupSum holds the sum of its key's amounts. */
  lemma GroupAmounts<K(!new)>(s: seq<(K, int)>, i: int)
    requires 0 <= i < |GroupSum(s)|
    ensures GroupSum(s)[i].1 == SumOf(s, GroupSum(s)[i].0)
  {
    SumOfDistinct(GroupSum(s), i);
  }

  // ---------------------------------------------------------------- $sort

  predicate SortedDesc<T>(s: seq<T>, key: T -> int) {
    forall i, j :: 0 <= i < j < |s| ==> key(s[i]) >= key(s[j])
  }

  /** Places x before the first element with a smaller key. */
  function Insert<T>(x: T, s: seq<T>, key: T -> int): (r: seq<T>)
    requires SortedDesc(s, key)
    ensures |r| == |s| + 1
    ensures SortedDesc(r, key)
    ensures multiset(r) == multiset(s) + multiset{x}
  {
    if s == [] || key(x) >= key(s[0]) then
      assert forall j :: 0 <= j < |s| ==> key(x) >= key(s[j]) by {
        if s != [] {
          forall j | 0 <= j < |s| ensures key(x) >= key(s[j]) {
            assert j == 0 || key(s[0]) >= key(s[j]);
          }
        }
      }
      ConsSorted(x, s, key);
      [x] + s
    else
      var rest := Insert(x, s[1..], key);
      assert s == [s[0]] + s[1..];
      HeadDominates(x, s, rest, key);
      ConsSorted(s[0], rest, key);
      var r := [s[0]] + rest;
      assert multiset(r) == multiset{s[0]} + multiset(rest);
      r
  }

  /** An element no smaller than any of a sorted s can go in front of it. */
  lemma ConsSorted<T>(y: T, s: seq<T>, key: T -> int)
    requires SortedDesc(s, key)
    requires forall j :: 0 <= j < |s| ==> key(y) >= key(s[j])
    ensures SortedDesc([y] + s, key)
  {
    var r := [y] + s;
    forall i, j | 0 <= i < j < |r| ensures key(r[i]) >= key(r[j]) {
      assert r[j] == s[j - 1];
      if i > 0 {
        assert r[i] == s[i - 1];
      }
    }
  }

  /** The head of a sorted s is no smaller than x inserted among the rest of s. */
  lemma HeadDominates<T>(x: T, s: seq<T>, rest: seq<T>, key: T -> int)
    requires SortedDesc(s, key) && s != [] && key(x) < key(s[0])
    requires multiset(rest) == multiset(s[1..]) + multiset{x}
    ensures forall j :: 0 <= j < |rest| ==> key(s[0]) >= key(rest[j])
  {
    forall j | 0 <= j < |rest| ensures key(s[0]) >= key(rest[j]) {
      assert rest[j] in multiset(rest);
      if rest[j] != x {
        assert rest[j] in multiset(s[1..]);
        var i :| 0 <= i < |s[1..]| && s[1..][i] == rest[j];
        assert s[i + 1] == rest[j];
      }
    }
  }

  /** `$sort` descending on key: ordered, and a permutation of the input. */
  function SortDesc<T>(s: seq<T>, key: T -> int): (r: seq<T>)
    ensures |r| == |s|
    ensures SortedDesc(r, key)
    ensures multiset(r) == multiset(s)
  {
    if s == [] then [] else
      assert s == [s[0]] + s[1..];
      Insert(s[0], SortDesc(s[1..], key), key)
  }

  /** The amount of a group. */
  function Amount<K>(g: (K, int)): int { g.1 }

  /** The total of a non-empty sequence is its first amount plus the total of the rest. */
  lemma TotalCons<K>(s: seq<(K, int)>)
    requires s != []
    ensures Total(s) == s[0].1 + Total(s[1..])
  {
    TotalConcat([s[0]], s[1..]);
    assert [s[0]] + s[1..] == s;
    assert [s[0]][..0] == [];
  }

  lemma {:induction false} InsertTotal<K>(x: (K, int), s: seq<(K, int)>, key: ((K, int)) -> int)
    requires SortedDesc(s, key)
    ensures Total(Insert(x, s, key)) == x.1 + Total(s)
  {
    var r := Insert(x, s, key);
    if s == [] || key(x) >= key(s[0]) {
      assert r == [x] + s;
      TotalCons(r);
      assert r[1..] == s;
    } else {
      var rest := Insert(x, s[1..], key);
      assert r == [s[0]] + rest;
      InsertTotal(x, s[1..], key);
      TotalCons(r);
      assert r[1..] == rest;
      TotalCons(s);
    }
  }

  lemma {:induction false} SortTotal<K>(s: seq<(K, int)>, key: ((K, int)) -> int)
    ensures Total(SortDesc(s, key)) == Total(s)
  {
    if s != [] {
      var rest := SortDesc(s[1..], key);
      assert SortDesc(s, key) == Insert(s[0], rest, key);
      SortTotal(s[1..], key);
      InsertTotal(s[0], rest, key);
      TotalCons(s);
    }
  }

  lemma SameElementsSameKeys<K>(a: seq<(K, int)>, b: seq<(K, int)>, k: K)
    requires multiset(a) == multiset(b)
    ensures HasKey(a, k) <==> HasKey(b, k)
  {
    if HasKey(a, k) {
      var i :| 0 <= i < |a| && a[i].0 == k;
      assert a[i] in multiset(b);
      var j :| 0 <= j < |b| && b[j] == a[i];
    }
    if HasKey(b, k) {
      var i :| 0 <= i < |b| && b[i].0 == k;
      assert b[i] in multiset(a);
      var j :| 0 <= j < |a| && a[j] == b[i];
    }
  }

  lemma {:induction false} InsertDistinct<K>(x: (K, int), s: seq<(K, int)>, key: ((K, int)) -> int)
    requires SortedDesc(s, key) && DistinctKeys(s) && !HasKey(s, x.0)
    ensures DistinctKeys(Insert(x, s, key))
  {
    if s != [] && key(x) < key(s[0]) {
      var rest := Insert(x, s[1..], key);
      assert !HasKey(s[1..], x.0) by {
        forall i | 0 <= i < |s[1..]| ensures s[1..][i].0 != x.0 {
          assert s[1..][i] == s[i + 1];
        }
      }
      InsertDistinct(x, s[1..], key);
      assert !HasKey(s[1..], s[0].0);
      SameElementsSameKeys(rest, s[1..] + [x], s[0].0);
      HasKeySnoc(s[1..], x, s[0].0);
      assert forall i :: 0 <= i < |rest| ==> rest[i].0 != s[0].0;
    }
  }

  lemma {:induction false} SortDistinct<K>(s: seq<(K, int)>, key: ((K, int)) -> int)
    ensures DistinctKeys(s) ==> DistinctKeys(SortDesc(s, key))
  {
    if s != [] && DistinctKeys(s) {
      SortDistinct(s[1..], key);
      assert !HasKey(s[1..], s[0].0);
      SameElementsSameKeys(SortDesc(s[1..], key), s[1..], s[0].0);
      InsertDistinct(s[0], SortDesc(s[1..], key), key);
    }
  }

  /**
   * `$sort: { amount: -1 }` over the groups: ordered by amount, the same
   * groups (so the same keys, still distinct) and the same total.
   */
  function SortGroupsDesc<K(==,!new)>(g: seq<(K, int)>): (r: seq<(K, int)>)
    ensures SortedDesc(r, Amount) && multiset(r) == multiset(g)
    ensures forall k :: HasKey(r, k) <==> HasKey(g, k)
    ensures DistinctKeys(g) ==> DistinctKeys(r)
    ensures Total(r) == Total(g)
  {
    var r := SortDesc(g, Amount);
    SortTotal(g, Amount);
    SortDistinct(g, Amount);
    assert forall k :: HasKey(r, k) <==> HasKey(g, k) by {
      forall k ensures HasKey(r, k) <==> HasKey(g, k) { SameElementsSameKeys(r, g, k); }
    }
    r
  }

  /** Each sorted group holds the sum of its key's amounts in the grouped pairs. */
  lemma GroupValue<K(!new)>(s: seq<(K, int)>, i: int)
    requires 0 <= i < |SortGroupsDesc(GroupSum(s))|
    ensures SortGroupsDesc(GroupSum(s))[i].1 == SumOf(s, SortGroupsDesc(GroupSum(s))[i].0)
  {
    var g := GroupSum(s);
    var r := SortGroupsDesc(g);
    assert r[i] in multiset(g);
    var j :| 0 <= j < |g| && g[j] == r[i];
    SumOfDistinct(g, j);
  }

  /** Every group of the sorted grouping holds its key's sum. */
  lemma GroupValues<K(!new)>(s: seq<(K, int)>)
    ensures forall i :: 0 <= i < |SortGroupsDesc(GroupSum(s))| ==>
      SortGroupsDesc(GroupSum(s))[i].1 == SumOf(s, SortGroupsDesc(GroupSum(s))[i].0)
  {
    var r := SortGroupsDesc(GroupSum(s));
    forall i | 0 <= i < |r| ensures r[i].1 == SumOf(s, r[i].0) { GroupValue(s, i); }
  }

  /**
   * The first group after sorting is a key that occurs, holding that key's
   * sum, and no key sums to more.
   */
  lemma PeakGroup<K(!new)>(s: seq<(K, int)>)
    requires s != []
    ensures var r := SortGroupsDesc(GroupSum(s));
      && r != []
      && HasKey(s, r[0].0)
      && r[0].1 == SumOf(s, r[0].0)
      && forall k :: HasKey(s, k) ==> SumOf(s, k) <= r[0].1
  {
    var r := SortGroupsDesc(GroupSum(s));
    assert HasKey(s, s[0].0);
    assert r != [];
    GroupValue(s, 0);
    forall k | HasKey(s, k) ensures SumOf(s, k) <= r[0].1 {
      var i :| 0 <= i < |r| && r[i].0 == k;
      GroupValue(s, i);
    }
  }

  // ---------------------------------------------------------------- lookups

  /** `find((g) => g._id === k)?.value || 0`: the first group with key k, or 0. */
  function Lookup<K(==)>(g: seq<(K, int)>, k: K): (r: int)
    ensures !HasKey(g, k) ==> r == 0
    ensures HasKey(g, k) ==> exists i :: 0 <= i < |g| && g[i].0 == k && r == g[i].1 && forall j :: 0 <= j < i ==> g[j].0 != k
  {
    if g == [] then 0
    else if g[0].0 == k then g[0].1
    else
      assert forall i :: 1 <= i < |g| ==> g[i] == g[1..][i - 1];
      var r := Lookup(g[1..], k);
      assert HasKey(g, k) ==> HasKey(g[1..], k);
      r
  }

  /** For groups with distinct keys, the lookup is the key's sum. */
  lemma LookupIsSum<K>(g: seq<(K, int)>, k: K)
    requires DistinctKeys(g)
    ensures Lookup(g, k) == SumOf(g, k)
  {
    if HasKey(g, k) {
      var i :| 0 <= i < |g| && g[i].0 == k && Lookup(g, k) == g[i].1;
      SumOfDistinct(g, i);
    } else {
      SumOfAbsent(g, k);
    }
  }

  /** `new Map(g.map((x) => [x._id, x.value]))`: later pairs overwrite earlier ones. */
  function ToMap<K(!new)>(g: seq<(K, int)>): (m: map<K, int>)
    ensures forall k :: k in m <==> HasKey(g, k)
  {
    if g == [] then map[]
    else
      var g', last := g[..|g| - 1], g[|g| - 1];
      assert g == g' + [last];
      assert forall k :: HasKey(g, k) <==> HasKey(g', k) || last.0 == k by {
        forall k ensures HasKey(g, k) <==> HasKey(g', k) || last.0 == k { HasKeySnoc(g', last, k); }
      }
      ToMap(g')[last.0 := last.1]
  }

  /** For groups with distinct keys, the map holds each key's sum. */
  lemma {:induction false} ToMapIsSum<K(!new)>(g: seq<(K, int)>, k: K)
    requires DistinctKeys(g) && HasKey(g, k)
    ensures ToMap(g)[k] == SumOf(g, k)
  {
    var g', last := g[..|g| - 1], g[|g| - 1];
    assert g == g' + [last];
    HasKeySnoc(g', last, k);
    if last.0 == k {
      assert !HasKey(g', k);
      SumOfAbsent(g', k);
    } else {
      ToMapIsSum(g', k);
    }
  }

  // ---------------------------------------------------------------- skip / limit

  /** A window of a sorted sequence is sorted, and holds only its elements. */
  lemma SkipLimitSorted<T>(s: seq<T>, skip: nat, limit: nat, key: T -> int)
    requires SortedDesc(s, key)
    ensures SortedDesc(SkipLimit(s, skip, limit), key)
    ensures forall x :: x in SkipLimit(s, skip, limit) ==> x in s
  {
    var r := SkipLimit(s, skip, limit);
    if skip < |s| {
      forall i, j | 0 <= i < j < |r| ensures key(r[i]) >= key(r[j]) {
        assert r[i] == s[skip + i] && r[j] == s[skip + j];
      }
    }
  }

  /** The window after the first skip elements continues them. */
  lemma SkipLimitContinues<T>(s: seq<T>, skip: nat, limit: nat)
    ensures var a := if skip <= |s| then skip else |s|;
            var b := if skip + limit <= |s| then skip + limit else |s|;
            s[..a] + SkipLimit(s, skip, limit) == s[..b]
  {
  }

  /** The number of records the pages before page `page` hold: (page - 1) * limit. */
  function Offset(page: int, limit: nat): nat
    requires page >= 1
  {
    if page == 1 then 0 else Offset(page - 1, limit) + limit
  }

  lemma {:induction false} OffsetIsProduct(page: int, limit: nat)
    requires page >= 1
    ensures Offset(page, limit) == (page - 1) * limit
  {
    if page > 1 {
      OffsetIsProduct(page - 1, limit);
      assert (page - 2) * limit + limit == (page - 1) * limit;
    }
  }

  /** Pages 1 … p of s, one after the other. */
  function Paged<T>(s: seq<T>, p: nat, limit: nat): seq<T> {
    if p == 0 then [] else Paged(s, p - 1, limit) + SkipLimit(s, Offset(p, limit), limit)
  }

  /** Reading pages 1 … p in turn yields the first p * limit elements, in order. */
  lemma {:induction false} PagedIsPrefix<T>(s: seq<T>, p: nat, limit: nat)
    ensures Paged(s, p, limit) == s[..if Offset(p + 1, limit) <= |s| then Offset(p + 1, limit) else |s|]
  {
    if p > 0 {
      PagedIsPrefix(s, p - 1, limit);
      SkipLimitContinues(s, Offset(p, limit), limit);
    }
  }

  /**
   * In a sorted sequence, an element outside the first n is no larger than
   * any of them.
   */
  lemma PrefixDominates<T>(s: seq<T>, key: T -> int, n: nat, x: T)
    requires SortedDesc(s, key) && n <= |s| && x in s && x !in s[..n]
    ensures forall y :: y in s[..n] ==> key(x) <= key(y)
  {
    var i :| 0 <= i < |s| && s[i] == x;
    assert forall j :: 0 <= j < n ==> s[j] == s[..n][j];
    forall y | y in s[..n] ensures key(x) <= key(y) {
      var j :| 0 <= j < n && s[..n][j] == y;
      assert s[j] == y;
    }
  }

  /**
   * The first `limit` elements of a sorted sequence: anything left out is no
   * larger than every element kept, and is left out only when `limit` are kept.
   */
  lemma TopDominates<T>(s: seq<T>, key: T -> int, limit: nat)
    requires SortedDesc(s, key)
    ensures var r := SkipLimit(s, 0, limit);
      forall x :: x in s && x !in r ==> |r| == limit && forall y :: y in r ==> key(x) <= key(y)
  {
    var r := SkipLimit(s, 0, limit);
    var n := if limit <= |s| then limit else |s|;
    assert r == s[..n];
    assert n == |s| ==> r == s;
    forall x | x in s && x !in r ensures |r| == limit && forall y :: y in r ==> key(x) <= key(y) {
      PrefixDominates(s, key, n, x);
    }
  }

  /** Sequences with the same multiset have the same elements. */
  lemma SameMembers<T>(a: seq<T>, b: seq<T>)
    requires multiset(a) == multiset(b)
    ensures forall x :: x in a <==> x in b
  {
    forall x ensures x in a <==> x in b {
      assert x in a <==> x in multiset(a);
      assert x in b <==> x in multiset(b);
    }
  }

  /** `.skip(skip).limit(limit)` (the store applies skip before limit whatever the call order). */
  function SkipLimit<T>(s: seq<T>, skip: nat, limit: nat): (r: seq<T>)
    ensures |r| <= limit
    ensures skip >= |s| ==> r == []
    ensures skip < |s| ==> r == s[skip..if skip + limit <= |s| then skip + limit else |s|]
  {
    if skip >= |s| then [] else s[skip..if skip + limit <= |s| then skip + limit else |s|]
  }
}

=== FILE: auth_controller.dfy ===
/**
 * The authentication controller (src/controller/auth.controller.js) over the
 * user and OTP collections. Each handler is a pure step function on the
 * stores, carrying the properties, and a method of AuthService that performs
 * the same writes in place. A user is identified by its index in the user
 * collection. Outside effects are parameters: the clock (now), the generated
 * code (code), whether the mail service delivered (mailDelivered; a failed
 * delivery raises, and the handler answers 500 after the writes already made)
 * and the password check of the hashing library (compare).
 */
module Auth {
  import opened Wrappers
  import opened OtpModel
  import AuthSchemas

  /** A user document; password stands for the value the save hook hashes. */
  datatype User = User(name: string, email: string, password: string, isEmailVerified: bool, lastLogin: Option<int>)

  datatype AuthState = AuthState(users: seq<User>, otps: seq<OtpRecord>)

  datatype Outcome =
    | AccountCreated(user: nat)
    | UserAlreadyExists
    | UserNotFound
    | InvalidCredentials
    | EmailNotVerified(user: nat)
    | LoginSuccessful
    | EmailAlreadyVerified
    | OtpInvalidOrExpired
    | OtpExpired
    | MaxAttemptsExceeded
    | OtpIncorrect
    | EmailVerified
    | CodeSent
    | InternalError

  /** The HTTP status of each answer; the body's success flag is true exactly for the 2xx ones. */
  function Status(o: Outcome): (r: int)
    ensures 200 <= r < 300 <==> o.AccountCreated? || o == LoginSuccessful || o == EmailVerified || o == CodeSent
    ensures o == InternalError <==> r == 500
  {
    match o
    case AccountCreated(_) => 201
    case UserAlreadyExists => 409
    case UserNotFound => 404
    case InvalidCredentials => 401
    case EmailNotVerified(_) => 400
    case LoginSuccessful => 200
    case EmailAlreadyVerified => 400
    case OtpInvalidOrExpired => 404
    case OtpExpired => 400
    case MaxAttemptsExceeded => 400
    case OtpIncorrect => 400
    case EmailVerified => 200
    case CodeSent => 200
    case InternalError => 500
  }

  /** The unique index on email. */
  predicate UniqueEmails(users: seq<User>) {
    forall i, j :: 0 <= i < j < |users| ==> users[i].email != users[j].email
  }

  /** The stores' invariant: unique emails, OTP records point at existing users and keep the schema's limits. */
  predicate Inv(s: AuthState) {
    && UniqueEmails(s.users)
    && forall r :: r in s.otps ==> r.user < |s.users| && ValidOtpRecord(r)
  }

  /** No account becomes verified. */
  predicate NoNewVerification(before: seq<User>, after: seq<User>) {
    forall i :: 0 <= i < |after| && after[i].isEmailVerified ==> i < |before| && before[i].isEmailVerified
  }

  /** findOne({ email }) */
  function FindByEmail(users: seq<User>, email: string): (r: Option<nat>)
    ensures r.Some? ==> r.value < |users| && users[r.value].email == email
    ensures r.None? <==> forall i :: 0 <= i < |users| ==> users[i].email != email
  {
    if users == [] then None
    else if users[0].email == email then Some(0)
    else match FindByEmail(users[1..], email)
      case None => (assert forall i :: 1 <= i < |users| ==> users[i] == users[1..][i - 1]; None)
      case Some(i) => Some(i + 1)
  }

  /** findOne({ user }).sort({ createdAt: -1 }): records are appended in creation order, so the latest is the last one. */
  function LatestOtp(otps: seq<OtpRecord>, user: nat): (r: Option<nat>)
    ensures r.Some? ==> r.value < |otps| && otps[r.value].user == user
    ensures r.Some? ==> forall k :: r.value < k < |otps| ==> otps[k].user != user
    ensures r.None? <==> forall k :: 0 <= k < |otps| ==> otps[k].user != user
  {
    if otps == [] then None
    else if otps[|otps| - 1].user == user then Some(|otps| - 1)
    else LatestOtp(otps[..|otps| - 1], user)
  }

  /**
   * signup: 409 when a verified account already holds the email; otherwise the
   * unverified account with that email is overwritten (name and password), or a
   * new one is created, and then the mail is sent and a fresh code stored.
   */
  function SignupStep(s: AuthState, name: string, email: string, password: string, code: string, now: int, mailDelivered: bool): (r: (AuthState, Outcome))
    ensures UniqueEmails(s.users) ==>
      (r.1 == UserAlreadyExists <==> exists i :: 0 <= i < |s.users| && s.users[i].email == email && s.users[i].isEmailVerified)
    ensures r.1 == UserAlreadyExists ==> r.0 == s
    ensures r.1 != UserAlreadyExists ==>
      var u := if FindByEmail(s.users, email).Some? then FindByEmail(s.users, email).value else |s.users|;
      && |r.0.users| == (if u == |s.users| then |s.users| + 1 else |s.users|)
      && r.0.users[u] == User(name, email, password, false, if u == |s.users| then Some(now) else s.users[u].lastLogin)
      && (forall i :: 0 <= i < |s.users| && i != u ==> r.0.users[i] == s.users[i])
      && r.0.otps == s.otps + (if mailDelivered then [IssueOtp(u, code, now)] else [])
      && r.1 == (if mailDelivered then AccountCreated(u) else InternalError)
    ensures NoNewVerification(s.users, r.0.users)
    ensures Inv(s) && code != "" ==> Inv(r.0)
  {
    var existing := FindByEmail(s.users, email);
    if existing.Some? && s.users[existing.value].isEmailVerified then (s, UserAlreadyExists)
    else
      var (users, u) := Upsert(s.users, name, email, password, now);
      if !mailDelivered then (AuthState(users, s.otps), InternalError)
      else (AuthState(users, s.otps + [IssueOtp(u, code, now)]), AccountCreated(u))
  }

  /**
   * The account signup writes: the one holding the email gets the new name
   * and password, or a new unverified account is appended; with its index.
   */
  function Upsert(users: seq<User>, name: string, email: string, password: string, now: int): (r: (seq<User>, nat))
    ensures r.1 == if FindByEmail(users, email).Some? then FindByEmail(users, email).value else |users|
    ensures |r.0| == if r.1 == |users| then |users| + 1 else |users|
    ensures r.1 < |r.0| && r.0[r.1] == User(name, email, password, r.1 < |users| && users[r.1].isEmailVerified,
                                            if r.1 == |users| then Some(now) else users[r.1].lastLogin)
    ensures forall i :: 0 <= i < |users| && i != r.1 ==> r.0[i] == users[i]
    ensures UniqueEmails(users) ==> UniqueEmails(r.0)
  {
    var existing := FindByEmail(users, email);
    if existing.Some? then
      var u := existing.value;
      (users[u := users[u].(name := name, password := password)], u)
    else
      (users + [User(name, email, password, false, Some(now))], |users|)
  }

  /**
   * signin: 404 for an unknown email, 401 for a wrong password, 400 for an
   * unverified account (reporting its id), and otherwise success, recording the
   * login time. Only lastLogin ever changes.
   */
  function SigninStep(s: AuthState, email: string, password: string, compare: (string, string) -> bool, now: int): (r: (AuthState, Outcome))
    ensures r.1 == UserNotFound <==> forall i :: 0 <= i < |s.users| ==> s.users[i].email != email
    ensures UniqueEmails(s.users) ==>
      (r.1 == LoginSuccessful <==>
        exists i :: 0 <= i < |s.users| && s.users[i].email == email && compare(password, s.users[i].password) && s.users[i].isEmailVerified)
    ensures r.1 == InvalidCredentials ==> exists i :: 0 <= i < |s.users| && s.users[i].email == email && !compare(password, s.users[i].password)
    ensures r.1.EmailNotVerified? ==>
      r.1.user < |s.users| && s.users[r.1.user].email == email && compare(password, s.users[r.1.user].password) && !s.users[r.1.user].isEmailVerified
    ensures r.1 in {UserNotFound, InvalidCredentials, LoginSuccessful} || r.1.EmailNotVerified?
    ensures r.1 != LoginSuccessful ==> r.0 == s
    ensures r.1 == LoginSuccessful ==>
      && r.0.otps == s.otps
      && exists u :: 0 <= u < |s.users| && s.users[u].email == email && r.0.users == s.users[u := s.users[u].(lastLogin := Some(now))]
    ensures Inv(s) ==> Inv(r.0)
  {
    var found := FindByEmail(s.users, email);
    if found.None? then (s, UserNotFound)
    else
      var u := found.value;
      if !compare(password, s.users[u].password) then (s, InvalidCredentials)
      else if !s.users[u].isEmailVerified then (s, EmailNotVerified(u))
      else (AuthState(s.users[u := s.users[u].(lastLogin := Some(now))], s.otps), LoginSuccessful)
  }

  /**
   * A verification request reaches the comparison of codes: the user exists
   * and is unverified, has a code, that code is not expired and has fewer than
   * five counted submissions.
   */
  predicate CountsAttempt(s: AuthState, userId: int, now: int) {
    && 0 <= userId < |s.users|
    && !s.users[userId].isEmailVerified
    && LatestOtp(s.otps, userId).Some?
    && !IsExpired(s.otps[LatestOtp(s.otps, userId).value], now)
    && s.otps[LatestOtp(s.otps, userId).value].attempts < MaxAttempts
  }

  /**
   * verifyOTP: the checks run in the order unknown user (404), already verified
   * (400), no code (404), expired (400), budget spent (400); then the submission
   * is counted against the latest code, and a matching code verifies the
   * account before the welcome mail is sent.
   */
  function VerifyStep(s: AuthState, userId: int, code: string, now: int, mailDelivered: bool): (r: (AuthState, Outcome))
    ensures !(0 <= userId < |s.users|) ==> r.1 == UserNotFound
    ensures 0 <= userId < |s.users| && s.users[userId].isEmailVerified ==> r.1 == EmailAlreadyVerified
    ensures 0 <= userId < |s.users| && !s.users[userId].isEmailVerified ==>
      match LatestOtp(s.otps, userId)
      case None => r.1 == OtpInvalidOrExpired
      case Some(k) =>
        && (IsExpired(s.otps[k], now) ==> r.1 == OtpExpired)
        && (!IsExpired(s.otps[k], now) && s.otps[k].attempts >= MaxAttempts ==> r.1 == MaxAttemptsExceeded)
    ensures !CountsAttempt(s, userId, now) ==> r.0 == s
    ensures CountsAttempt(s, userId, now) ==>
      var k := LatestOtp(s.otps, userId).value;
      && r.0.otps == s.otps[k := s.otps[k].(attempts := s.otps[k].attempts + 1)]
      && (r.1 == OtpIncorrect <==> s.otps[k].otp != code)
    ensures |r.0.users| == |s.users|
    ensures forall i :: 0 <= i < |s.users| ==>
      (r.0.users[i] != s.users[i] <==>
        i == userId && CountsAttempt(s, userId, now) && s.otps[LatestOtp(s.otps, userId).value].otp == code)
    ensures forall i :: 0 <= i < |s.users| && r.0.users[i] != s.users[i] ==> r.0.users[i] == s.users[i].(isEmailVerified := true)
    ensures r.1 == EmailVerified <==>
      CountsAttempt(s, userId, now) && s.otps[LatestOtp(s.otps, userId).value].otp == code && mailDelivered
    ensures CountsAttempt(s, userId, now) && s.otps[LatestOtp(s.otps, userId).value].otp == code && !mailDelivered ==>
      r.1 == InternalError
    ensures Inv(s) ==> Inv(r.0)
  {
    if !(0 <= userId < |s.users|) then (s, UserNotFound)
    else if s.users[userId].isEmailVerified then (s, EmailAlreadyVerified)
    else match LatestOtp(s.otps, userId)
      case None => (s, OtpInvalidOrExpired)
      case Some(k) =>
        var record := s.otps[k];
        if IsExpired(record, now) then (s, OtpExpired)
        else if record.attempts + 1 > MaxAttempts then (s, MaxAttemptsExceeded)
        else
          var otps := s.otps[k := record.(attempts := record.attempts + 1)];
          if record.otp != code then (AuthState(s.users, otps), OtpIncorrect)
          else
            var users := s.users[userId := s.users[userId].(isEmailVerified := true)];
            (AuthState(users, otps), if mailDelivered then EmailVerified else InternalError)
  }

  /**
   * resendOTP: for an existing unverified user whose mail goes out, a fresh
   * code is stored, and it becomes the user's latest code; nothing else changes.
   */
  function ResendStep(s: AuthState, userId: int, code: string, now: int, mailDelivered: bool): (r: (AuthState, Outcome))
    ensures !(0 <= userId < |s.users|) ==> r.1 == UserNotFound
    ensures 0 <= userId < |s.users| && s.users[userId].isEmailVerified ==> r.1 == EmailAlreadyVerified
    ensures r.1 == CodeSent <==> 0 <= userId < |s.users| && !s.users[userId].isEmailVerified && mailDelivered
    ensures 0 <= userId < |s.users| && !s.users[userId].isEmailVerified && !mailDelivered ==> r.1 == InternalError
    ensures r.1 != CodeSent ==> r.0 == s
    ensures r.1 == CodeSent ==>
      && r.0.users == s.users
      && r.0.otps == s.otps + [IssueOtp(userId, code, now)]
      && LatestOtp(r.0.otps, userId) == Some(|s.otps|)
    ensures Inv(s) && code != "" ==> Inv(r.0)
  {
    if !(0 <= userId < |s.users|) then (s, UserNotFound)
    else if s.users[userId].isEmailVerified then (s, EmailAlreadyVerified)
    else if !mailDelivered then (s, InternalError)
    else (AuthState(s.users, s.otps + [IssueOtp(userId, code, now)]), CodeSent)
  }

  /**
   * The TTL monitor running at time now: the users stay, the unexpired
   * records stay in their order, and a user whose latest code is still live
   * keeps it as their latest.
   */
  function ExpireStep(s: AuthState, now: int): (r: AuthState)
    ensures r.users == s.users
    ensures forall x :: x in r.otps <==> x in s.otps && !IsExpired(x, now)
    ensures forall x :: multiset(r.otps)[x] == if IsExpired(x, now) then 0 else multiset(s.otps)[x]
    ensures Aggregation.IsSubsequence(r.otps, s.otps)
    ensures forall u: nat :: LiveLatest(s.otps, u, now) ==>
      LatestOtp(r.otps, u).Some? && r.otps[LatestOtp(r.otps, u).value] == s.otps[LatestOtp(s.otps, u).value]
    ensures Inv(s) ==> Inv(r)
  {
    forall u: nat | LiveLatest(s.otps, u, now)
      ensures LatestOtp(PurgeExpired(s.otps, now), u).Some?
      ensures PurgeExpired(s.otps, now)[LatestOtp(PurgeExpired(s.otps, now), u).value] == s.otps[LatestOtp(s.otps, u).value]
    {
      PurgeKeepsLiveLatest(s.otps, now, u);
    }
    AuthState(s.users, PurgeExpired(s.otps, now))
  }

  /** The user's latest code exists and is not expired at time now. */
  predicate LiveLatest(otps: seq<OtpRecord>, user: nat, now: int) {
    LatestOtp(otps, user).Some? && !IsExpired(otps[LatestOtp(otps, user).value], now)
  }

  /** The purge keeps a live latest code as the user's latest. */
  lemma {:induction false} PurgeKeepsLiveLatest(otps: seq<OtpRecord>, now: int, user: nat)
    requires LiveLatest(otps, user, now)
    ensures LatestOtp(PurgeExpired(otps, now), user).Some?
    ensures PurgeExpired(otps, now)[LatestOtp(PurgeExpired(otps, now), user).value] == otps[LatestOtp(otps, user).value]
  {
    var init, last := otps[..|otps| - 1], otps[|otps| - 1];
    assert otps == init + [last];
    var kept := PurgeExpired(init, now);
    var p := PurgeExpired(otps, now);
    assert p == kept + (if IsExpired(last, now) then [] else [last]);
    if last.user == user {
      assert p == kept + [last];
    } else {
      assert LatestOtp(otps, user) == LatestOtp(init, user);
      PurgeKeepsLiveLatest(init, now, user);
      var k := LatestOtp(kept, user).value;
      if !IsExpired(last, now) {
        assert p[..|p| - 1] == kept;
        assert LatestOtp(p, user) == LatestOtp(kept, user);
        assert p[k] == kept[k];
      } else {
        assert p == kept;
      }
    }
  }

  /** Counting a submission leaves every user's latest record where it was. */
  lemma LatestOtpAfterCount(otps: seq<OtpRecord>, k: nat, record: OtpRecord, user: nat)
    requires k < |otps| && record.user == otps[k].user
    ensures LatestOtp(otps[k := record], user) == LatestOtp(otps, user)
  {
    var after := otps[k := record];
    assert forall j :: 0 <= j < |otps| ==> after[j].user == otps[j].user;
  }

  /** The submissions a user still has against their latest code. */
  function Budget(s: AuthState, userId: nat): nat {
    match LatestOtp(s.otps, userId)
    case None => 0
    case Some(k) => if s.otps[k].attempts <= MaxAttempts then MaxAttempts - s.otps[k].attempts else 0
  }

  /**
   * A series of verification requests by one user, each a (code, time) pair:
   * the final stores and how many submissions reached the comparison.
   */
  function RunVerify(s: AuthState, userId: nat, submissions: seq<(string, int)>): (AuthState, nat)
    decreases |submissions|
  {
    if submissions == [] then (s, 0)
    else
      var (code, now) := submissions[0];
      var rest := RunVerify(VerifyStep(s, userId, code, now, true).0, userId, submissions[1..]);
      (rest.0, rest.1 + if CountsAttempt(s, userId, now) then 1 else 0)
  }

  /**
   * However many requests are made, at most five codes are compared against a
   * stored code before a new one is issued (resendOTP or signup).
   */
  lemma {:induction false} AtMostFiveComparisons(s: AuthState, userId: nat, submissions: seq<(string, int)>)
    requires Inv(s)
    ensures RunVerify(s, userId, submissions).1 <= Budget(s, userId) <= MaxAttempts
    decreases |submissions|
  {
    if submissions != [] {
      var (code, now) := submissions[0];
      var next := VerifyStep(s, userId, code, now, true).0;
      AtMostFiveComparisons(next, userId, submissions[1..]);
      if CountsAttempt(s, userId, now) {
        CountingSpendsBudget(s, userId, code, now);
      }
    }
  }

  /** A counted submission spends one unit of the budget. */
  lemma CountingSpendsBudget(s: AuthState, userId: nat, code: string, now: int)
    requires CountsAttempt(s, userId, now)
    ensures Budget(VerifyStep(s, userId, code, now, true).0, userId) == Budget(s, userId) - 1
  {
    var k := LatestOtp(s.otps, userId).value;
    LatestOtpAfterCount(s.otps, k, s.otps[k].(attempts := s.otps[k].attempts + 1), userId);
  }

  /**
   * After a resend, the new code verifies the account at any time up to its
   * expiry, whatever happened to the earlier codes.
   */
  lemma ResendRestoresBudget(s: AuthState, userId: int, code: string, issuedAt: int, now: int)
    requires 0 <= userId < |s.users| && !s.users[userId].isEmailVerified
    requires issuedAt <= now <= issuedAt + OtpLifetimeMs
    ensures var after := ResendStep(s, userId, code, issuedAt, true).0;
      VerifyStep(after, userId, code, now, true).1 == EmailVerified
  {
  }

  /** Once the TTL monitor has run, a request at that moment can no longer meet an expired code. */
  lemma PurgeRemovesExpiredBranch(s: AuthState, userId: int, code: string, now: int, mailDelivered: bool)
    ensures VerifyStep(ExpireStep(s, now), userId, code, now, mailDelivered).1 != OtpExpired
  {
    var t := ExpireStep(s, now);
    if 0 <= userId < |t.users| && !t.users[userId].isEmailVerified && LatestOtp(t.otps, userId).Some? {
      assert t.otps[LatestOtp(t.otps, userId).value] in t.otps;
    }
  }

  /**
   * Verification is final: once a code has verified the account, a later
   * verifyOTP or resendOTP for that user answers "already verified", and a
   * later signup with its email answers 409.
   */
  lemma VerifiedIsFinal(s: AuthState, userId: int, code: string, now: int, mailDelivered: bool,
                        code2: string, now2: int, mailDelivered2: bool, name: string, password: string)
    requires UniqueEmails(s.users)
    requires VerifyStep(s, userId, code, now, mailDelivered).1 == EmailVerified
    ensures var t := VerifyStep(s, userId, code, now, mailDelivered).0;
      && 0 <= userId < |t.users| && t.users[userId].isEmailVerified
      && VerifyStep(t, userId, code2, now2, mailDelivered2).1 == EmailAlreadyVerified
      && ResendStep(t, userId, code2, now2, mailDelivered2).1 == EmailAlreadyVerified
      && SignupStep(t, name, t.users[userId].email, password, code2, now2, mailDelivered2).1 == UserAlreadyExists
  {
    var t := VerifyStep(s, userId, code, now, mailDelivered).0;
    assert t.users == s.users[userId := s.users[userId].(isEmailVerified := true)];
  }

  /** The two collections, updated in place by the handlers. */
  class AuthService {
    var users: seq<User>
    var otps: seq<OtpRecord>

    function State(): AuthState
      reads this
    {
      AuthState(users, otps)
    }

    ghost predicate Valid()
      reads this
    {
      Inv(State())
    }

    constructor ()
      ensures Valid() && users == [] && otps == []
    {
      users := [];
      otps := [];
    }

    method Signup(name: string, email: string, password: string, code: string, now: int, mailDelivered: bool) returns (outcome: Outcome)
      requires Valid() && AuthSchemas.IsOtpCode(code)
      modifies this
      ensures Valid()
      ensures (State(), outcome) == SignupStep(old(State()), name, email, password, code, now, mailDelivered)
    {
      var existing := FindByEmail(users, email);
      if existing.Some? && users[existing.value].isEmailVerified {
        return UserAlreadyExists;
      }
      var u: nat;
      if existing.Some? {
        u := existing.value;
        users := users[u := users[u].(name := name, password := password)];
      } else {
        u := |users|;
        users := users + [User(name, email, password, false, Some(now))];
      }
      if !mailDelivered {
        return InternalError;
      }
      otps := otps + [IssueOtp(u, code, now)];
      return AccountCreated(u);
    }

    method Signin(email: string, password: string, compare: (string, string) -> bool, now: int) returns (outcome: Outcome)
      requires Valid()
      modifies this
      ensures Valid()
      ensures (State(), outcome) == SigninStep(old(State()), email, password, compare, now)
    {
      var found := FindByEmail(users, email);
      if found.None? {
        return UserNotFound;
      }
      var u := found.value;
      if !compare(password, users[u].password) {
        return InvalidCredentials;
      }
      if !users[u].isEmailVerified {
        return EmailNotVerified(u);
      }
      users := users[u := users[u].(lastLogin := Some(now))];
      return LoginSuccessful;
    }

    method VerifyOtp(userId: int, code: string, now: int, mailDelivered: bool) returns (outcome: Outcome)
      requires Valid()
      modifies this
      ensures Valid()
      ensures (State(), outcome) == VerifyStep(old(State()), userId, code, now, mailDelivered)
    {
      if !(0 <= userId < |users|) {
        return UserNotFound;
      }
      if users[userId].isEmailVerified {
        return EmailAlreadyVerified;
      }
      var latest := LatestOtp(otps, userId);
      if latest.None? {
        return OtpInvalidOrExpired;
      }
      var k := latest.value;
      if IsExpired(otps[k], now) {
        return OtpExpired;
      }
      var attempts := otps[k].attempts + 1;
      if attempts > MaxAttempts {
        return MaxAttemptsExceeded;
      }
      var record := otps[k];
      otps := otps[k := record.(attempts := attempts)];
      if record.otp != code {
        return OtpIncorrect;
      }
      users := users[userId := users[userId].(isEmailVerified := true)];
      if !mailDelivered {
        return InternalError;
      }
      return EmailVerified;
    }

    method ResendOtp(userId: int, code: string, now: int, mailDelivered: bool) returns (outcome: Outcome)
      requires Valid() && AuthSchemas.IsOtpCode(code)
      modifies this
      ensures Valid()
      ensures (State(), outcome) == ResendStep(old(State()), userId, code, now, mailDelivered)
    {
      if !(0 <= userId < |users|) {
        return UserNotFound;
      }
      if users[userId].isEmailVerified {
        return EmailAlreadyVerified;
      }
      if !mailDelivered {
        return InternalError;
      }
      otps := otps + [IssueOtp(userId, code, now)];
      return CodeSent;
    }

    /** The TTL monitor deleting the records past their expiry time. */
    method ExpireOtps(now: int)
      requires Valid()
      modifies this
      ensures Valid()
      ensures State() == ExpireStep(old(State()), now)
    {
      otps := PurgeExpired(otps, now);
    }
  }
}

=== FILE: auth_validation.dfy ===
/**
 * The request schemas of the auth routes (src/validation/authValidation.joi.js)
 * as predicates on a JSON body. `isEmail` stands for Joi's e-mail
 * recogniser. The schemas only accept or refuse: the converted values
 * (trimmed, lower-cased) are not what the handlers receive.
 */
module AuthSchemas {
  import opened Request
  import Text

  const SignupKeys: set<string> := {"name", "email", "password", "confirmPassword"}
  const SigninKeys: set<string> := {"email", "password"}
  const VerifyKeys: set<string> := {"userId", "otp"}
  const ResendKeys: set<string> := {"userId"}

  const Specials: string := "!@#$%^&*"

  predicate IsLower(c: char) { 'a' <= c <= 'z' }
  predicate IsUpper(c: char) { 'A' <= c <= 'Z' }
  predicate IsDigit(c: char) { '0' <= c <= '9' }

  /**
   * /^(?=.*[a-z])(?=.*[A-Z])(?=.*[0-9])(?=.*[!@#$%^&*]).+$/ : one line of at
   * least one character holding a lower-case letter, an upper-case letter,
   * a digit and one of !@#$%^&*.
   */
  predicate PasswordPattern(p: string) {
    && |p| >= 1
    && (forall i :: 0 <= i < |p| ==> !Text.IsLineTerminator(p[i]))
    && (exists i :: 0 <= i < |p| && IsLower(p[i]))
    && (exists i :: 0 <= i < |p| && IsUpper(p[i]))
    && (exists i :: 0 <= i < |p| && IsDigit(p[i]))
    && (exists i :: 0 <= i < |p| && p[i] in Specials)
  }

  /** password at signup: a string of 6 to 128 characters matching the pattern (not trimmed). */
  predicate SignupPasswordRule(body: Body) {
    var p := RequiredString(body, "password", false);
    p.Some? && 6 <= |p.value| <= 128 && PasswordPattern(p.value)
  }

  /** name: trimmed, 5 to 50 characters. */
  predicate NameRule(body: Body) {
    var n := RequiredString(body, "name", true);
    n.Some? && 5 <= |n.value| <= 50
  }

  /** email at signup: trimmed, then an e-mail address. */
  predicate SignupEmailRule(body: Body, isEmail: string -> bool) {
    var e := RequiredString(body, "email", true);
    e.Some? && isEmail(e.value)
  }

  /** confirmPassword: required and the same value as password. */
  predicate ConfirmRule(body: Body) {
    "confirmPassword" in body && "password" in body && body["confirmPassword"] == body["password"]
  }

  predicate SignupAccepts(body: Body, isEmail: string -> bool) {
    && OnlyDeclaredKeys(body, SignupKeys)
    && NameRule(body)
    && SignupEmailRule(body, isEmail)
    && SignupPasswordRule(body)
    && ConfirmRule(body)
  }

  /** email at signin: lower-cased and trimmed, then an e-mail address. */
  predicate SigninEmailRule(body: Body, isEmail: string -> bool) {
    "email" in body && body["email"].JString?
    && var e := Text.Trim(Text.ToLower(body["email"].s));
    e != "" && isEmail(e)
  }

  predicate SigninAccepts(body: Body, isEmail: string -> bool) {
    && OnlyDeclaredKeys(body, SigninKeys)
    && SigninEmailRule(body, isEmail)
    && RequiredString(body, "password", false).Some?
  }

  /** otp: exactly 6 characters, all decimal digits. */
  predicate OtpRule(body: Body) {
    "otp" in body && body["otp"].JString? && IsOtpCode(body["otp"].s)
  }

  predicate IsOtpCode(s: string) {
    |s| == 6 && forall i :: 0 <= i < |s| ==> IsDigit(s[i])
  }

  predicate VerifyOtpAccepts(body: Body) {
    && OnlyDeclaredKeys(body, VerifyKeys)
    && RequiredString(body, "userId", false).Some?
    && OtpRule(body)
  }

  predicate ResendOtpAccepts(body: Body) {
    && OnlyDeclaredKeys(body, ResendKeys)
    && RequiredString(body, "userId", false).Some?
  }

  /**
   * The signin password rule only asks for a non-empty string, so a
   * password accepted at signup is accepted at signin.
   */
  lemma SignupPasswordPassesSignin(signup: Body, isEmail: string -> bool, email: string)
    requires SignupAccepts(signup, isEmail)
    requires isEmail(Text.Trim(Text.ToLower(email))) && Text.Trim(Text.ToLower(email)) != ""
    ensures SigninAccepts(map["email" := JString(email), "password" := signup["password"]], isEmail)
  {
    assert SignupPasswordRule(signup);
    SigninPair(email, signup["password"], isEmail);
  }

  /** The signin body built from an address and a non-empty password string. */
  lemma SigninPair(email: string, password: Json, isEmail: string -> bool)
    requires isEmail(Text.Trim(Text.ToLower(email))) && Text.Trim(Text.ToLower(email)) != ""
    requires password.JString? && password.s != ""
    ensures SigninAccepts(map["email" := JString(email), "password" := password], isEmail)
  {
    var b := map["email" := JString(email), "password" := password];
    assert OnlyDeclaredKeys(b, SigninKeys);
    assert SigninEmailRule(b, isEmail) by { assert b["email"] == JString(email); }
    assert RequiredString(b, "password", false).Some? by { assert b["password"] == password; }
  }

  /** Lower-casing is idempotent. */
  lemma ToLowerIdempotent(e: string)
    ensures Text.ToLower(Text.ToLower(e)) == Text.ToLower(e)
  {
    var l := Text.ToLower(e);
    forall i | 0 <= i < |l| ensures Text.ToLower(l)[i] == l[i] {
      assert l[i] == Text.ToLowerChar(e[i]);
    }
  }

  /**
   * The signin e-mail rule does not look at case: an address is accepted
   * exactly when its lower-cased form is.
   */
  lemma SigninEmailIgnoresCase(body: Body, isEmail: string -> bool, email: string)
    ensures SigninEmailRule(body["email" := JString(email)], isEmail)
        <==> SigninEmailRule(body["email" := JString(Text.ToLower(email))], isEmail)
  {
    ToLowerIdempotent(email);
  }

  /** A code of six digits, submitted with a user id, passes the verification schema. */
  lemma CodePassesVerify(userId: string, code: string)
    requires userId != "" && IsOtpCode(code)
    ensures VerifyOtpAccepts(map["userId" := JString(userId), "otp" := JString(code)])
  {
  }
}

=== FILE: calendar.dfy ===
/**
 * Calendar dates as the handlers build them with `new Date(year, month, day,
 * h, m, s, ms)`: a year, a month index 0..11, a day of the month and the
 * milliseconds since midnight. Instant orders them as Date objects compare.
 */
module Calendar {

  const MsPerDay: int := 86_400_000
  /** 23:59:59.999 as milliseconds since midnight. */
  const LastMsOfDay: int := MsPerDay - 1

  type Month = m: int | 0 <= m < 12
  type Day = d: int | 1 <= d <= 31 witness 1
  type MsOfDay = x: int | 0 <= x < MsPerDay

  datatype DateTime = DateTime(year: int, month: Month, day: Day, ms: MsOfDay)

  /** The chart labels of the months, in calendar order. */
  const MonthLabels: seq<string> := ["Jan", "Feb", "Mar", "Apr", "May", "Jun", "Jul", "Aug", "Sep", "Oct", "Nov", "Dec"]

  predicate IsLeapYear(y: int) {
    y % 4 == 0 && (y % 100 != 0 || y % 400 == 0)
  }

  /** The number of days of month m; `new Date(y, m + 1, 0)` is that day of month m. */
  function LastDayOfMonth(y: int, m: Month): (r: Day)
    ensures 28 <= r <= 31
  {
    if m == 1 then (if IsLeapYear(y) then 29 else 28)
    else if m == 3 || m == 5 || m == 8 || m == 10 then 30
    else 31
  }

  /** A calendar year has 365 days, 366 in a leap year. */
  lemma DaysInYear(y: int)
    ensures LastDayOfMonth(y, 0) + LastDayOfMonth(y, 1) + LastDayOfMonth(y, 2) + LastDayOfMonth(y, 3)
          + LastDayOfMonth(y, 4) + LastDayOfMonth(y, 5) + LastDayOfMonth(y, 6) + LastDayOfMonth(y, 7)
          + LastDayOfMonth(y, 8) + LastDayOfMonth(y, 9) + LastDayOfMonth(y, 10) + LastDayOfMonth(y, 11)
          == if IsLeapYear(y) then 366 else 365
  {
  }

  /** A date a JavaScript Date can hold: the day exists in that month. */
  predicate ValidDate(d: DateTime) {
    d.day <= LastDayOfMonth(d.year, d.month)
  }

  /** A number that orders dates as their time values do (a mixed-radix encoding of the fields). */
  function Instant(d: DateTime): int {
    ((d.year * 12 + d.month) * 31 + (d.day - 1)) * MsPerDay + d.ms
  }

  /** Field-by-field order: year, then month, then day, then time of day. */
  predicate LexBefore(a: DateTime, b: DateTime) {
    a.year < b.year
    || (a.year == b.year && a.month < b.month)
    || (a.year == b.year && a.month == b.month && a.day < b.day)
    || (a.year == b.year && a.month == b.month && a.day == b.day && a.ms < b.ms)
  }

  /** Instant orders dates exactly as their fields do, and is one-to-one. */
  lemma InstantOrder(a: DateTime, b: DateTime)
    ensures Instant(a) < Instant(b) <==> LexBefore(a, b)
    ensures Instant(a) == Instant(b) <==> a == b
  {
  }

  /** `$gte lo` and `$lte hi` on the transaction date. */
  predicate Within(d: DateTime, lo: DateTime, hi: DateTime) {
    Instant(lo) <= Instant(d) <= Instant(hi)
  }

  /** new Date(y, 0, 1): Jan 1, 00:00. */
  function YearStart(y: int): DateTime { DateTime(y, 0, 1, 0) }

  /** new Date(y, 11, 31): Dec 31, 00:00. */
  function Dec31Midnight(y: int): DateTime { DateTime(y, 11, 31, 0) }

  /** new Date(y, 11, 31, 23, 59, 59, 999). */
  function YearEnd(y: int): DateTime { DateTime(y, 11, 31, LastMsOfDay) }

  /** new Date(y, m, 1). */
  function MonthStart(y: int, m: Month): DateTime { DateTime(y, m, 1, 0) }

  /** new Date(y, m + 1, 0, 23, 59, 59, 999): the last day of month m at 23:59:59.999. */
  function MonthEnd(y: int, m: Month): DateTime { DateTime(y, m, LastDayOfMonth(y, m), LastMsOfDay) }

  /** The insights year window holds exactly the dates of that year. */
  lemma YearWindowExact(d: DateTime, y: int)
    ensures Within(d, YearStart(y), YearEnd(y)) <==> d.year == y
  {
  }

  /**
   * The recent-chart window ends at Dec 31 00:00, so it holds the dates of
   * that year except those later than midnight on Dec 31.
   */
  lemma RecentWindowExact(d: DateTime, y: int)
    ensures Within(d, YearStart(y), Dec31Midnight(y))
        <==> d.year == y && !(d.month == 11 && d.day == 31 && d.ms > 0)
  {
  }

  /** The current-month window holds exactly the (real) dates of that month. */
  lemma MonthWindowExact(d: DateTime, y: int, m: Month)
    requires ValidDate(d)
    ensures Within(d, MonthStart(y, m), MonthEnd(y, m)) <==> d.year == y && d.month == m
  {
  }
}

=== FILE: insight_charts.dfy ===
/**
 * The chart helpers written after getInsightsData's return
 * (src/controller/transaction.controller.js, from line 341). That code never
 * runs, so each helper stands alone here, with the year and the transactions
 * as parameters: the dense month series, the per-year series, the category
 * colours and names, the amount histogram and the two-year trend.
 */
module InsightCharts {
  import opened Calendar
  import opened Aggregation
  import opened TransactionModel
  import opened Transactions
  import Text

  // ---------------------------------------------------------------- monthly data

  /** The month number 1..12 `$month` reports. */
  function MonthNumber(t: Transaction): int {
    t.dateTime.month + 1
  }

  /** `$group` by `$month` with `$sum` of the amount, over the transactions of a window. */
  function MonthlyAgg(window: seq<Transaction>): (r: seq<(int, int)>)
    ensures DistinctKeys(r)
    ensures forall k :: HasKey(r, k) <==> HasKey(Pairs(window, MonthNumber), k)
    ensures forall k :: SumOf(r, k) == SumOf(Pairs(window, MonthNumber), k)
  {
    GroupSum(Pairs(window, MonthNumber))
  }

  /**
   * `monthLabels.map((label, idx) => ({ label, value: map.get(idx + 1) || 0 }))`:
   * twelve points in calendar order, each the sparse value of its month
   * number, or 0 when there is none.
   */
  function DenseMonths(sparse: map<int, int>): (r: seq<ChartPoint>)
    ensures |r| == 12
    ensures forall m :: 0 <= m < 12 ==> r[m].name == MonthLabels[m]
    ensures forall m :: 0 <= m < 12 ==> r[m].value == if m + 1 in sparse then sparse[m + 1] else 0
  {
    seq(12, m requires 0 <= m < 12 => ChartPoint(MonthLabels[m], if m + 1 in sparse then sparse[m + 1] else 0))
  }

  /** Summing by month number is summing by month. */
  lemma {:induction false} MonthNumberSum(window: seq<Transaction>, m: Month)
    ensures SumOf(Pairs(window, MonthNumber), m + 1) == MonthSum(window, m)
  {
    if window != [] {
      var p := Pairs(window, MonthNumber);
      assert p[..|p| - 1] == Pairs(window[..|window| - 1], MonthNumber);
      MonthNumberSum(window[..|window| - 1], m);
    }
  }

  /**
   * The dense series of the monthly aggregation holds, month by month, the
   * same values as the 12-slot chart of getRecentTransactions over the same
   * transactions.
   */
  lemma DenseMonthsAgree(window: seq<Transaction>)
    ensures forall m :: 0 <= m < 12 ==> DenseMonths(ToMap(MonthlyAgg(window)))[m].value == MonthSum(window, m)
  {
    forall m | 0 <= m < 12 ensures DenseMonths(ToMap(MonthlyAgg(window)))[m].value == MonthSum(window, m) {
      DenseMonthAgrees(window, m);
    }
  }

  lemma DenseMonthAgrees(window: seq<Transaction>, m: Month)
    ensures DenseMonths(ToMap(MonthlyAgg(window)))[m].value == MonthSum(window, m)
  {
    var agg := MonthlyAgg(window);
    var sparse := ToMap(agg);
    assert DenseMonths(sparse)[m].value == if m + 1 in sparse then sparse[m + 1] else 0;
    MonthNumberSum(window, m);
    if HasKey(agg, m + 1) {
      ToMapIsSum(agg, m + 1);
    } else {
      SumOfAbsent(agg, m + 1);
    }
  }

  /** The monthly data of a year (the transactions of that year). */
  function MonthlyData(owned: seq<Transaction>, year: int): (r: seq<ChartPoint>)
    ensures |r| == 12
    ensures forall m :: 0 <= m < 12 ==> r[m] == ChartPoint(MonthLabels[m], MonthSum(YearWindow(owned, year), m))
  {
    DenseMonthsAgree(YearWindow(owned, year));
    DenseMonths(ToMap(MonthlyAgg(YearWindow(owned, year))))
  }

  datatype Series = Series(series: string, data: seq<ChartPoint>)

  /** buildTrend for this year and last year, computed one after the other. */
  function Trend(owned: seq<Transaction>, year: int): (r: seq<Series>)
    ensures |r| == 2 && r[0].series == "This Year" && r[1].series == "Last Year"
    ensures |r[0].data| == 12 && |r[1].data| == 12
    ensures forall m :: 0 <= m < 12 ==>
      && r[0].data[m] == ChartPoint(MonthLabels[m], MonthSum(YearWindow(owned, year), m))
      && r[1].data[m] == ChartPoint(MonthLabels[m], MonthSum(YearWindow(owned, year - 1), m))
  {
    [Series("This Year", MonthlyData(owned, year)), Series("Last Year", MonthlyData(owned, year - 1))]
  }

  // ---------------------------------------------------------------- yearly data

  /** String(y) of a whole number. */
  function YearLabel(y: int): (r: string)
    ensures y >= 0 ==> r == Text.NatToString(y)
  {
    if y >= 0 then Text.NatToString(y) else "-" + Text.NatToString(-y)
  }

  function NegYear(g: (int, int)): int {
    -g.0
  }

  /**
   * Sorting distinct groups keeps the groups: still distinct, the same
   * keys, each holding its key's sum.
   */
  lemma SortKeepsGroups(g: seq<(int, int)>, key: ((int, int)) -> int)
    requires DistinctKeys(g)
    ensures var r := SortDesc(g, key);
      && DistinctKeys(r)
      && (forall y :: HasKey(r, y) <==> HasKey(g, y))
      && (forall i :: 0 <= i < |r| ==> r[i].1 == SumOf(g, r[i].0))
  {
    var r := SortDesc(g, key);
    SortDistinct(g, key);
    forall y ensures HasKey(r, y) <==> HasKey(g, y) {
      SameElementsSameKeys(r, g, y);
    }
    forall i | 0 <= i < |r| ensures r[i].1 == SumOf(g, r[i].0) {
      assert r[i] in multiset(g);
      var j :| 0 <= j < |g| && g[j] == r[i];
      SumOfDistinct(g, j);
    }
  }

  /**
   * `$group` by `$year` with `$sum`, then `$sort: { _id: 1 }`: one group per
   * year that has transactions, holding that year's sum, in strictly
   * increasing year order.
   */
  function YearlyGroups(owned: seq<Transaction>): (r: seq<(int, int)>)
    ensures forall y :: HasKey(r, y) <==> HasKey(Pairs(owned, YearOf), y)
    ensures forall i :: 0 <= i < |r| ==> r[i].1 == SpentInYear(owned, r[i].0)
    ensures forall i, j :: 0 <= i < j < |r| ==> r[i].0 < r[j].0
  {
    var g := GroupSum(Pairs(owned, YearOf));
    SortKeepsGroups(g, NegYear);
    var r := SortDesc(g, NegYear);
    assert forall i, j :: 0 <= i < j < |r| ==> r[i].0 < r[j].0 by {
      forall i, j | 0 <= i < j < |r| ensures r[i].0 < r[j].0 {
        assert NegYear(r[i]) >= NegYear(r[j]);
      }
    }
    r
  }

  /** yearlyData: each yearly group as a point labelled String(year). */
  function YearlyData(owned: seq<Transaction>): (r: seq<ChartPoint>)
    ensures var g := YearlyGroups(owned);
      |r| == |g| && forall i :: 0 <= i < |r| ==> r[i] == ChartPoint(YearLabel(g[i].0), SpentInYear(owned, g[i].0))
  {
    var g := YearlyGroups(owned);
    seq(|g|, i requires 0 <= i < |g| => ChartPoint(YearLabel(g[i].0), g[i].1))
  }

  // ---------------------------------------------------------------- categories

  /** `s ? s.charAt(0).toUpperCase() + s.slice(1) : "Other"`. */
  function Capitalize(s: string): (r: string)
    ensures s == "" ==> r == "Other"
    ensures s != "" ==> r == Text.UpperFirst(s)
  {
    if s == "" then "Other" else Text.UpperFirst(s)
  }

  /** For a listed tag, the category text is the name getTagsAndPaymentMethods gives it. */
  lemma CapitalizeAgreesWithNames(tags: seq<string>, i: int)
    requires 0 <= i < |tags| && tags[i] != ""
    ensures Capitalize(tags[i]) == NamedOptions(tags)[i].name
  {
  }

  const OtherColor: string := "#6b7280"

  const TagColors: map<string, string> := map[
    "food" := "#ef4444",
    "transport" := "#3b82f6",
    "shopping" := "#06b6d4",
    "entertainment" := "#8b5cf6",
    "health" := "#10b981",
    "education" := "#84cc16",
    "bills" := "#f59e0b",
    "travel" := "#f97316",
    "investment" := "#eab308",
    "other" := OtherColor]

  /** `tagColorMap[tag] || tagColorMap.other`: a known tag's colour, otherwise the colour of "other". */
  function TagColor(tag: string): (r: string)
    ensures tag in TagColors ==> r == TagColors[tag]
    ensures tag !in TagColors ==> r == OtherColor
    ensures r in TagColors.Values
  {
    assert TagColors["other"] == OtherColor;
    if tag in TagColors then TagColors[tag] else OtherColor
  }

  datatype CategoryPoint = CategoryPoint(text: string, value: int, color: string)

  /**
   * A category chart from per-tag sums: one point per group in the same
   * order, so a breakdown sorted largest first stays sorted.
   */
  function CategoryData(groups: seq<(string, int)>): (r: seq<CategoryPoint>)
    ensures |r| == |groups|
    ensures forall i :: 0 <= i < |r| ==> r[i] == CategoryPoint(Capitalize(groups[i].0), groups[i].1, TagColor(groups[i].0))
    ensures SortedDesc(groups, Amount) ==> forall i, j :: 0 <= i < j < |r| ==> r[i].value >= r[j].value
  {
    seq(|groups|, i requires 0 <= i < |groups| => CategoryPoint(Capitalize(groups[i].0), groups[i].1, TagColor(groups[i].0)))
  }

  // ---------------------------------------------------------------- distribution

  const Boundaries: seq<nat> := [0, 500, 1000, 2000, 5000, 10000, 20000, 50000, 100000]
  /** Number.MAX_SAFE_INTEGER, the upper end the pipeline appends to the boundaries. */
  const MaxSafeInteger: int := 9_007_199_254_740_991

  /** A `$bucket` id: the lower boundary of a range, or the default bucket "100000+". */
  datatype BucketId = Lower(bound: nat) | Default

  /** The index of the last boundary at or below a (a >= 0). */
  function RangeIndex(a: int, i: nat): (r: nat)
    requires 0 <= a && i < |Boundaries|
    ensures r <= i && Boundaries[r] <= a
    ensures r < i ==> a < Boundaries[r + 1]
  {
    if Boundaries[i] <= a || i == 0 then i else RangeIndex(a, i - 1)
  }

  /**
   * `$bucket` over the boundaries followed by MAX_SAFE_INTEGER: an amount in
   * [b_i, b_i+1) lands in the bucket of b_i (amounts from 100000 up to
   * MAX_SAFE_INTEGER in the bucket of 100000), and anything outside,
   * negative amounts included, in the default bucket.
   */
  function BucketOf(a: int): (r: BucketId)
    ensures r.Default? <==> a < 0 || a >= MaxSafeInteger
    ensures r.Lower? ==> exists i :: 0 <= i < |Boundaries| && r.bound == Boundaries[i] && Boundaries[i] <= a
                                   && (i + 1 < |Boundaries| ==> a < Boundaries[i + 1])
  {
    if a < 0 || a >= MaxSafeInteger then Default
    else
      var i := RangeIndex(a, |Boundaries| - 1);
      Lower(Boundaries[i])
  }

  /** `${boundaries[i]}-${boundaries[i + 1]}` */
  function RangeLabel(i: nat): string
    requires i + 1 < |Boundaries|
  {
    Text.NatToString(Boundaries[i]) + "-" + Text.NatToString(Boundaries[i + 1])
  }

  /** `${boundaries[boundaries.length - 1]}+` */
  function TopLabel(): string {
    Text.NatToString(Boundaries[|Boundaries| - 1]) + "+"
  }

  const DistributionLabelTexts: seq<string> :=
    ["0-500", "500-1000", "1000-2000", "2000-5000", "5000-10000", "10000-20000", "20000-50000", "50000-100000", "100000+"]

  /** n followed by k decimal zeros: n * 10^k. */
  function Shifted(n: nat, k: nat): nat {
    if k == 0 then n else Shifted(n, k - 1) * 10
  }

  function Zeros(k: nat): string {
    if k == 0 then "" else Zeros(k - 1) + "0"
  }

  /** The decimal text of n * 10^k (n > 0) is that of n followed by k zeros. */
  lemma {:induction false} ShiftedText(n: nat, k: nat)
    requires n >= 1
    ensures Shifted(n, k) >= 1
    ensures Text.NatToString(Shifted(n, k)) == Text.NatToString(n) + Zeros(k)
  {
    if k > 0 {
      var m := Shifted(n, k - 1);
      ShiftedText(n, k - 1);
      assert (m * 10) / 10 == m && (m * 10) % 10 == 0;
      calc {
        Text.NatToString(m * 10);
        Text.NatToString(m) + [Text.DigitChar(0)];
        (Text.NatToString(n) + Zeros(k - 1)) + "0";
        Text.NatToString(n) + (Zeros(k - 1) + "0");
      }
    }
  }

  /** The text of a non-zero digit followed by k zeros. */
  lemma DigitShiftText(d: nat, k: nat, text: string)
    requires 1 <= d <= 9 && text == [Text.DigitChar(d)] + Zeros(k)
    ensures Text.NatToString(Shifted(d, k)) == text
  {
    ShiftedText(d, k);
  }

  /** Each boundary after the first as a digit followed by zeros: LeadDigits[i] * 10^ZeroCounts[i]. */
  const LeadDigits: seq<nat> := [0, 5, 1, 2, 5, 1, 2, 5, 1]
  const ZeroCounts: seq<nat> := [0, 2, 3, 3, 3, 4, 4, 4, 5]

  lemma BoundaryShapes()
    ensures forall i :: 1 <= i < |Boundaries| ==>
      1 <= LeadDigits[i] <= 9 && Boundaries[i] == Shifted(LeadDigits[i], ZeroCounts[i])
  {
  }

  const BoundaryStrings: seq<string> := ["0", "500", "1000", "2000", "5000", "10000", "20000", "50000", "100000"]

  /** The boundaries after the first, spelled as a digit and zeros. */
  lemma BoundaryStringShapes()
    ensures forall i :: 1 <= i < |Boundaries| ==> [Text.DigitChar(LeadDigits[i])] + Zeros(ZeroCounts[i]) == BoundaryStrings[i]
  {
    forall i | 1 <= i < |Boundaries| ensures [Text.DigitChar(LeadDigits[i])] + Zeros(ZeroCounts[i]) == BoundaryStrings[i] {
      SpelledAs(LeadDigits[i], ZeroCounts[i], BoundaryStrings[i]);
    }
  }

  /** Zeros(k) is k characters '0'. */
  lemma {:induction false} ZerosAreZeros(k: nat)
    ensures |Zeros(k)| == k && forall j :: 0 <= j < k ==> Zeros(k)[j] == '0'
  {
    if k > 0 {
      ZerosAreZeros(k - 1);
    }
  }

  /** A text whose first character is the digit d and whose k others are '0'. */
  lemma SpelledAs(d: nat, k: nat, text: string)
    requires 1 <= d <= 9 && |text| == k + 1 && text[0] == Text.DigitChar(d)
    requires forall j :: 1 <= j <= k ==> text[j] == '0'
    ensures [Text.DigitChar(d)] + Zeros(k) == text
  {
    ZerosAreZeros(k);
  }

  /** The range labels join consecutive boundary strings with "-". */
  lemma LabelsFromStrings()
    ensures forall i :: 0 <= i < |Boundaries| - 1 ==> BoundaryStrings[i] + "-" + BoundaryStrings[i + 1] == DistributionLabelTexts[i]
  {
  }

  /** A range label between two boundaries of the form d * 10^k: each boundary's digit and zeros, joined by "-". */
  lemma RangeLabelShape(i: nat, d1: nat, k1: nat, d2: nat, k2: nat)
    requires i + 1 < |Boundaries| && 1 <= d1 <= 9 && 1 <= d2 <= 9
    requires Boundaries[i] == Shifted(d1, k1) && Boundaries[i + 1] == Shifted(d2, k2)
    ensures RangeLabel(i) == ([Text.DigitChar(d1)] + Zeros(k1)) + "-" + ([Text.DigitChar(d2)] + Zeros(k2))
  {
    ShiftedText(d1, k1);
    ShiftedText(d2, k2);
    assert Text.NatToString(d1) == [Text.DigitChar(d1)] && Text.NatToString(d2) == [Text.DigitChar(d2)];
  }

  /** The label of each range is its literal text: the two boundary texts joined by "-". */
  lemma RangeLabelText(i: int)
    requires 0 <= i < |Boundaries| - 1
    ensures RangeLabel(i) == DistributionLabelTexts[i]
  {
    if i == 0 {
      DigitShiftText(5, 2, "500");
      assert Shifted(5, 2) == 500;
    } else {
      BoundaryShapes();
      BoundaryStringShapes();
      LabelsFromStrings();
      RangeLabelShape(i, LeadDigits[i], ZeroCounts[i], LeadDigits[i + 1], ZeroCounts[i + 1]);
    }
  }

  /**
   * The histogram labels, built by the loop over the boundaries: the eight
   * ranges "0-500" … "50000-100000" and then "100000+".
   */
  method DistributionLabels() returns (labels: seq<string>)
    ensures labels == DistributionLabelTexts
  {
    labels := [];
    var i := 0;
    while i < |Boundaries| - 1
      invariant 0 <= i <= |Boundaries| - 1
      invariant labels == Ranges(i)
    {
      labels := labels + [RangeLabel(i)];
      i := i + 1;
    }
    LabelsComplete(labels);
    labels := labels + [TopLabel()];
  }

  /** The labels of the first n ranges, in order. */
  function Ranges(n: nat): (r: seq<string>)
    requires n < |Boundaries|
    ensures |r| == n && forall j :: 0 <= j < n ==> r[j] == RangeLabel(j)
  {
    if n == 0 then [] else Ranges(n - 1) + [RangeLabel(n - 1)]
  }

  /** The eight range labels in order, then the top label, are the histogram labels. */
  lemma LabelsComplete(ranges: seq<string>)
    requires ranges == Ranges(|Boundaries| - 1)
    ensures ranges + [TopLabel()] == DistributionLabelTexts
  {
    var all := ranges + [TopLabel()];
    forall j | 0 <= j < |all| ensures all[j] == DistributionLabelTexts[j] {
      if j < |ranges| {
        RangeLabelText(j);
      } else {
        TopLabelText();
      }
    }
  }

  /** `boundaries.indexOf(b)` */
  function IndexOf(b: nat): (r: int)
    ensures -1 <= r < |Boundaries|
    ensures r >= 0 ==> Boundaries[r] == b
    ensures r == -1 ==> b !in Boundaries
  {
    if b == 0 then 0 else if b == 500 then 1 else if b == 1000 then 2 else if b == 2000 then 3
    else if b == 5000 then 4 else if b == 10000 then 5 else if b == 20000 then 6
    else if b == 50000 then 7 else if b == 100000 then 8 else -1
  }

  /**
   * The label a bucket's entry is filed under, as written: the default
   * bucket's id is already "100000+"; a bucket whose boundary is followed by
   * another gets its range label; any other id becomes String(id), so the
   * bucket of 100000 is filed under "100000".
   */
  function EntryLabelAsWritten(id: BucketId): string {
    match id
    case Default => "100000+"
    case Lower(b) =>
      var idx := IndexOf(b);
      if idx != -1 && idx < |Boundaries| - 1 then RangeLabel(idx) else Text.NatToString(b)
  }

  /** The intended mapping: the bucket of the last boundary belongs to "100000+". */
  function EntryLabelFixed(id: BucketId): string {
    match id
    case Default => "100000+"
    case Lower(b) =>
      var idx := IndexOf(b);
      if idx != -1 && idx < |Boundaries| - 1 then RangeLabel(idx) else "100000+"
  }

  /** The number of amounts whose bucket is filed under the label text. */
  function CountFiled(amounts: seq<int>, text: string, labelOf: BucketId -> string): nat {
    if amounts == [] then 0
    else CountFiled(amounts[..|amounts| - 1], text, labelOf)
         + (if labelOf(BucketOf(amounts[|amounts| - 1])) == text then 1 else 0)
  }

  /**
   * `distributionLabels.map((label) => ({ label, value: distMap.get(label) || 0 }))`:
   * a point per histogram label with the number of amounts filed under it.
   */
  function Histogram(amounts: seq<int>, labelOf: BucketId -> string): (r: seq<ChartPoint>)
    ensures |r| == |DistributionLabelTexts|
    ensures forall i :: 0 <= i < |r| ==> r[i].name == DistributionLabelTexts[i]
  {
    Chart(amounts, DistributionLabelTexts, labelOf)
  }

  /** A point per label with the number of amounts filed under it. */
  function Chart(amounts: seq<int>, labels: seq<string>, labelOf: BucketId -> string): (r: seq<ChartPoint>)
    ensures |r| == |labels|
    ensures forall i :: 0 <= i < |r| ==> r[i] == ChartPoint(labels[i], CountFiled(amounts, labels[i], labelOf))
  {
    seq(|labels|, i requires 0 <= i < |labels| => ChartPoint(labels[i], CountFiled(amounts, labels[i], labelOf)))
  }

  function Amounts(s: seq<Transaction>): (r: seq<int>)
    ensures |r| == |s| && forall i :: 0 <= i < |s| ==> r[i] == s[i].amount
  {
    seq(|s|, i requires 0 <= i < |s| => s[i].amount)
  }

  /** The distribution data as written. */
  function DistributionAsWritten(owned: seq<Transaction>): seq<ChartPoint> {
    Histogram(Amounts(owned), EntryLabelAsWritten)
  }

  /** The distribution data as intended. */
  function Distribution(owned: seq<Transaction>): seq<ChartPoint> {
    Histogram(Amounts(owned), EntryLabelFixed)
  }

  /** Every amount is filed, by the intended mapping, under exactly one histogram label. */
  lemma FixedLabelIsOneOfTheLabels(a: int)
    ensures exists j :: 0 <= j < |DistributionLabelTexts| && DistributionLabelTexts[j] == EntryLabelFixed(BucketOf(a))
  {
    var id := BucketOf(a);
    if id.Lower? {
      var idx := IndexOf(id.bound);
      if idx != -1 && idx < |Boundaries| - 1 {
        RangeLabelText(idx);
        assert DistributionLabelTexts[idx] == EntryLabelFixed(id);
        return;
      }
    }
    assert DistributionLabelTexts[8] == EntryLabelFixed(id);
  }

  /** The histogram labels are pairwise different. */
  lemma LabelsDistinct()
    ensures forall i, j :: 0 <= i < j < |DistributionLabelTexts| ==> DistributionLabelTexts[i] != DistributionLabelTexts[j]
  {
  }

  /** An amount from 100000 up to MAX_SAFE_INTEGER is filed, as written, under no label. */
  lemma LargeAmountUnlabelled(a: int)
    requires 100000 <= a < MaxSafeInteger
    ensures EntryLabelAsWritten(BucketOf(a)) == "100000"
    ensures EntryLabelAsWritten(BucketOf(a)) !in DistributionLabelTexts
  {
    assert BucketOf(a) == Lower(100000);
    LastBoundaryText();
  }

  /** `${100000}` */
  lemma LastBoundaryText()
    ensures Text.NatToString(100000) == "100000"
  {
    DigitShiftText(1, 5, "100000");
    assert Shifted(1, 5) == 100000;
  }

  /** The last label is "100000+". */
  lemma TopLabelText()
    ensures TopLabel() == DistributionLabelTexts[|Boundaries| - 1]
  {
    LastBoundaryText();
    assert Boundaries[|Boundaries| - 1] == 100000;
  }

  /** Two different histogram positions carry different labels. */
  lemma LabelsDiffer(i: int, j: int)
    requires 0 <= i < |DistributionLabelTexts| && 0 <= j < |DistributionLabelTexts| && i != j
    ensures DistributionLabelTexts[i] != DistributionLabelTexts[j]
  {
    LabelsDistinct();
  }

  /**
   * The two mappings agree on the range labels: they differ only for the
   * bucket of 100000, which neither files under a range label.
   */
  lemma SameLabelOnRanges(a: int, i: int)
    requires 0 <= i < |DistributionLabelTexts| - 1
    ensures (EntryLabelFixed(BucketOf(a)) == DistributionLabelTexts[i])
        <==> (EntryLabelAsWritten(BucketOf(a)) == DistributionLabelTexts[i])
  {
    var id := BucketOf(a);
    if EntryLabelFixed(id) != EntryLabelAsWritten(id) {
      assert id.Lower? && IndexOf(id.bound) == 8;
      LastBoundaryText();
      assert EntryLabelAsWritten(id) == "100000";
      LabelsDiffer(i, 8);
    }
  }

  /**
   * As written, the histogram drops an amount of 100000 or more: a single
   * transaction of 150000 leaves every bar at 0.
   */
  lemma DistributionDropsLargeAmounts()
    ensures forall i :: 0 <= i < |DistributionLabelTexts| ==> CountFiled([150000], DistributionLabelTexts[i], EntryLabelAsWritten) == 0
  {
    LargeAmountUnlabelled(150000);
    assert [150000][..0] == [];
  }

  /**
   * Counting over any list of distinct labels that every amount is filed
   * under: the bars add up to the number of amounts, each one raising
   * exactly the bar of its label.
   */
  lemma {:induction false} ChartCountsAll(amounts: seq<int>, labels: seq<string>, labelOf: BucketId -> string)
    requires forall i, j :: 0 <= i < j < |labels| ==> labels[i] != labels[j]
    requires forall k :: 0 <= k < |amounts| ==> labelOf(BucketOf(amounts[k])) in labels
    ensures ChartTotal(Chart(amounts, labels, labelOf)) == |amounts|
  {
    if amounts == [] {
      ZeroChartTotal(Chart(amounts, labels, labelOf));
    } else {
      var rest := amounts[..|amounts| - 1];
      var a := amounts[|amounts| - 1];
      assert forall k :: 0 <= k < |rest| ==> rest[k] == amounts[k];
      ChartCountsAll(rest, labels, labelOf);
      assert labelOf(BucketOf(a)) in labels;
      var j :| 0 <= j < |labels| && labels[j] == labelOf(BucketOf(a));
      ChartStep(amounts, labels, labelOf, j);
      var h0 := Chart(rest, labels, labelOf);
      ChartTotalAdd(h0, j, 1);
    }
  }

  /** One more amount raises the bar of its label by one and leaves the others. */
  lemma ChartStep(amounts: seq<int>, labels: seq<string>, labelOf: BucketId -> string, j: int)
    requires forall i, j :: 0 <= i < j < |labels| ==> labels[i] != labels[j]
    requires amounts != [] && 0 <= j < |labels|
    requires labels[j] == labelOf(BucketOf(amounts[|amounts| - 1]))
    ensures var h0 := Chart(amounts[..|amounts| - 1], labels, labelOf);
      Chart(amounts, labels, labelOf) == h0[j := h0[j].(value := h0[j].value + 1)]
  {
    var h := Chart(amounts, labels, labelOf);
    var h0 := Chart(amounts[..|amounts| - 1], labels, labelOf);
    forall i | 0 <= i < |h| ensures h[i] == h0[j := h0[j].(value := h0[j].value + 1)][i] {
      if i < j {
        assert labels[i] != labels[j];
      } else if j < i {
        assert labels[j] != labels[i];
      }
    }
  }

  /** With the intended mapping the bars add up to the number of amounts. */
  lemma HistogramTotalAll(amounts: seq<int>)
    ensures ChartTotal(Histogram(amounts, EntryLabelFixed)) == |amounts|
  {
    forall k | 0 <= k < |amounts| ensures EntryLabelFixed(BucketOf(amounts[k])) in DistributionLabelTexts {
      FixedLabelIsOneOfTheLabels(amounts[k]);
    }
    LabelsDistinct();
    ChartCountsAll(amounts, DistributionLabelTexts, EntryLabelFixed);
  }

  /** With the intended mapping every transaction is counted once: the bars add up to the number of transactions. */
  lemma DistributionCountsAll(owned: seq<Transaction>)
    ensures ChartTotal(Distribution(owned)) == |owned|
  {
    HistogramTotalAll(Amounts(owned));
  }

  /** The fix changes only the last bar: the eight range bars are the same as written. */
  lemma {:induction false} DistributionRangesUnchanged(amounts: seq<int>, i: int)
    requires 0 <= i < |DistributionLabelTexts| - 1
    ensures CountFiled(amounts, DistributionLabelTexts[i], EntryLabelFixed)
         == CountFiled(amounts, DistributionLabelTexts[i], EntryLabelAsWritten)
  {
    if amounts != [] {
      var a := amounts[|amounts| - 1];
      DistributionRangesUnchanged(amounts[..|amounts| - 1], i);
      SameLabelOnRanges(a, i);
    }
  }
}

=== FILE: otp_model.dfy ===
/**
 * The OTP record (src/models/otp.model.js): the user it was issued to, the
 * code as a string, its expiry time, the number of submissions counted
 * against it (at most 5) and its creation time. Times are milliseconds.
 */
module OtpModel {
  import Aggregation

  const MaxAttempts: nat := 5
  /** Codes are issued for 5 minutes. */
  const OtpLifetimeMs: int := 5 * 60 * 1000

  datatype OtpRecord = OtpRecord(user: nat, otp: string, expiresAt: int, attempts: nat, createdAt: int)

  /** The schema's constraints: a non-empty code, and attempts at most 5. */
  predicate ValidOtpRecord(r: OtpRecord) {
    r.otp != "" && r.attempts <= MaxAttempts
  }

  /** A code is expired only once the clock is strictly past its expiry time. */
  predicate IsExpired(r: OtpRecord, now: int) {
    now > r.expiresAt
  }

  /** The record created for a freshly generated code. */
  function IssueOtp(user: nat, code: string, now: int): (r: OtpRecord)
    ensures r.user == user && r.otp == code && r.attempts == 0 && r.createdAt == now
    ensures !IsExpired(r, now + OtpLifetimeMs) && IsExpired(r, now + OtpLifetimeMs + 1)
    ensures code != "" ==> ValidOtpRecord(r)
  {
    OtpRecord(user, code, now + OtpLifetimeMs, 0, now)
  }

  function IsLive(now: int): OtpRecord -> bool {
    r => !IsExpired(r, now)
  }

  /**
   * The store's TTL index (`expires: 0` on expiresAt): when its monitor runs
   * at time now, every record already past its expiry time is deleted.
   */
  function PurgeExpired(otps: seq<OtpRecord>, now: int): (r: seq<OtpRecord>)
    ensures forall x :: x in r <==> x in otps && !IsExpired(x, now)
    ensures forall x :: multiset(r)[x] == if IsExpired(x, now) then 0 else multiset(otps)[x]
    ensures Aggregation.IsSubsequence(r, otps)
  {
    Aggregation.WhereKeepsOrder(otps, IsLive(now));
    Aggregation.Where(otps, IsLive(now))
  }
}

=== FILE: request.dfy ===
/**
 * Request bodies as JSON objects, and the parts of Joi's object and string
 * semantics the schemas rely on: a key the schema does not declare is
 * refused, a string rule refuses a value that is not a string and, after its
 * conversions (trim, lower-case), the empty string.
 */
module Request {
  import opened Wrappers
  import Text

  /** A JSON value; numbers are integers in this model. */
  datatype Json = JString(s: string) | JNumber(n: int) | JBool(b: bool) | JNull | JStructured

  /** A JSON object: the body of a POST request. */
  type Body = map<string, Json>

  /** Joi objects refuse keys their schema does not declare. */
  predicate OnlyDeclaredKeys(body: Body, declared: set<string>) {
    body.Keys <= declared
  }

  /**
   * What `Joi.string()` (with `.trim()` when trim holds) makes of a present
   * value: the converted text, or None when the rule refuses it.
   */
  function JoiString(v: Json, trim: bool): (r: Option<string>)
    ensures r.Some? <==> v.JString? && (if trim then Text.Trim(v.s) else v.s) != ""
    ensures r.Some? ==> r.value == if trim then Text.Trim(v.s) else v.s
  {
    if !v.JString? then None
    else
      var t := if trim then Text.Trim(v.s) else v.s;
      if t == "" then None else Some(t)
  }

  /** `Joi.string()...required()` for a key: present, and accepted by the string rule. */
  function RequiredString(body: Body, key: string, trim: bool): (r: Option<string>)
    ensures r.Some? ==> key in body && body[key].JString?
    ensures key !in body ==> r == None
  {
    if key in body then JoiString(body[key], trim) else None
  }
}

=== FILE: text.dfy ===
/**
 * String helpers shared by the validators and the chart formatters:
 * JavaScript's String.prototype.trim, ASCII case mapping, "first letter
 * upper-cased" and the decimal rendering of a number in a template literal.
 */
module Text {

  /**
   * The characters String.prototype.trim removes: ECMAScript's WhiteSpace
   * (tab, vertical tab, form feed, U+FEFF and every space separator of
   * category Zs) and LineTerminator (LF, CR, U+2028, U+2029).
   */
  predicate IsWhitespace(c: char) {
    || c == '\t' || c as int == 0x0B || c as int == 0x0C || c as int == 0xFEFF
    || IsSpaceSeparator(c)
    || IsLineTerminator(c)
  }

  /** Unicode category Zs. */
  predicate IsSpaceSeparator(c: char) {
    || c == ' ' || c as int == 0xA0 || c as int == 0x1680
    || (0x2000 <= c as int <= 0x200A)
    || c as int == 0x202F || c as int == 0x205F || c as int == 0x3000
  }

  /** Line terminators, which a regular-expression `.` does not match. */
  predicate IsLineTerminator(c: char) {
    c == '\n' || c == '\r' || c as int == 0x2028 || c as int == 0x2029
  }

  function TrimStart(s: string): (r: string)
    ensures |r| <= |s| && r == s[|s| - |r|..]
    ensures r == [] || !IsWhitespace(r[0])
    ensures forall i :: 0 <= i < |s| - |r| ==> IsWhitespace(s[i])
  {
    if s != [] && IsWhitespace(s[0]) then TrimStart(s[1..]) else s
  }

  function TrimEnd(s: string): (r: string)
    ensures |r| <= |s| && r == s[..|r|]
    ensures r == [] || !IsWhitespace(r[|r| - 1])
    ensures forall i :: |r| <= i < |s| ==> IsWhitespace(s[i])
  {
    if s != [] && IsWhitespace(s[|s| - 1]) then TrimEnd(s[..|s| - 1]) else s
  }

  /** String.prototype.trim: the text without leading and trailing whitespace. */
  function Trim(s: string): (r: string)
    ensures |r| <= |s|
    ensures r == [] || (!IsWhitespace(r[0]) && !IsWhitespace(r[|r| - 1]))
    ensures (forall i :: 0 <= i < |s| ==> IsWhitespace(s[i])) <==> r == []
  {
    var t := TrimStart(s);
    var r := TrimEnd(t);
    assert r != [] ==> r[0] == s[|s| - |t|];
    r
  }

  /**
   * What trim keeps: the slice of s left once a whitespace prefix and a
   * whitespace suffix are cut off (which, with Trim's own contract, ends
   * on non-whitespace on both sides).
   */
  lemma TrimIsSlice(s: string)
    ensures exists a, b ::
      && 0 <= a <= b <= |s| && Trim(s) == s[a..b]
      && (forall i :: 0 <= i < a ==> IsWhitespace(s[i]))
      && (forall i :: b <= i < |s| ==> IsWhitespace(s[i]))
  {
    var t := TrimStart(s);
    var r := TrimEnd(t);
    var a := |s| - |t|;
    assert r == s[a..a + |r|];
    assert forall i :: a + |r| <= i < |s| ==> s[i] == t[i - a];
  }

  /** Trimming is idempotent. */
  lemma TrimIdempotent(s: string)
    ensures Trim(Trim(s)) == Trim(s)
  {
    var t := Trim(s);
    assert TrimStart(t) == t by {
      if t != [] { assert !IsWhitespace(t[0]); }
    }
    assert TrimEnd(t) == t by {
      if t != [] { assert !IsWhitespace(t[|t| - 1]); }
    }
  }

  function ToUpperChar(c: char): (r: char)
    ensures 'a' <= c <= 'z' ==> 'A' <= r <= 'Z' && r as int == c as int - 32
    ensures !('a' <= c <= 'z') ==> r == c
  {
    if 'a' <= c <= 'z' then (c as int - 32) as char else c
  }

  function ToLowerChar(c: char): (r: char)
    ensures 'A' <= c <= 'Z' ==> 'a' <= r <= 'z' && r as int == c as int + 32
    ensures !('A' <= c <= 'Z') ==> r == c
  {
    if 'A' <= c <= 'Z' then (c as int + 32) as char else c
  }

  /** String.prototype.toLowerCase, on the ASCII letters. */
  function ToLower(s: string): (r: string)
    ensures |r| == |s|
    ensures forall i :: 0 <= i < |s| ==> r[i] == ToLowerChar(s[i])
  {
    seq(|s|, i requires 0 <= i < |s| => ToLowerChar(s[i]))
  }

  /**
   * `s.charAt(0).toUpperCase() + s.slice(1)`: the first character upper-cased,
   * the rest unchanged; the empty string stays empty.
   */
  function UpperFirst(s: string): (r: string)
    ensures |r| == |s|
    ensures s != [] ==> r[0] == ToUpperChar(s[0]) && r[1..] == s[1..]
  {
    if s == [] then [] else [ToUpperChar(s[0])] + s[1..]
  }

  function DigitChar(d: nat): (c: char)
    requires d < 10
    ensures '0' <= c <= '9' && c as int - '0' as int == d
  {
    (d + '0' as int) as char
  }

  /** The decimal text of a natural number, as `${n}` or String(n) writes it. */
  function NatToString(n: nat): (r: string)
    ensures |r| >= 1
    ensures forall i :: 0 <= i < |r| ==> '0' <= r[i] <= '9'
    ensures |r| > 1 ==> r[0] != '0'
  {
    if n < 10 then [DigitChar(n)] else NatToString(n / 10) + [DigitChar(n % 10)]
  }

  /** The value of a string of decimal digits (the inverse of NatToString). */
  function DigitsValue(s: string): nat
    requires forall i :: 0 <= i < |s| ==> '0' <= s[i] <= '9'
  {
    if s == [] then 0 else DigitsValue(s[..|s| - 1]) * 10 + (s[|s| - 1] as int - '0' as int)
  }

  /** Reading back the decimal text of n gives n. */
  lemma {:induction false} DigitsValueOfNatToString(n: nat)
    ensures DigitsValue(NatToString(n)) == n
  {
    if n >= 10 {
      var p := NatToString(n / 10);
      var s := p + [DigitChar(n % 10)];
      assert s[..|s| - 1] == p;
      DigitsValueOfNatToString(n / 10);
    }
  }

  /** Different numbers have different decimal texts. */
  lemma NatToStringInjective(a: nat, b: nat)
    requires NatToString(a) == NatToString(b)
    ensures a == b
  {
    DigitsValueOfNatToString(a);
    DigitsValueOfNatToString(b);
  }
}

=== FILE: transaction_controller.dfy ===
/**
 * The read handlers of the transaction controller
 * (src/controller/transaction.controller.js) over a store of transactions:
 * the recent list and the 12-month chart, paging, the search filter, the tag
 * and payment-method names, and the insights overview with its per-tag
 * breakdowns. The store is a sequence of records; "now" and the values the
 * server reads from files not in this model (the page size, the enum lists)
 * are parameters.
 */
module Transactions {
  import opened Wrappers
  import opened Calendar
  import opened Aggregation
  import opened TransactionModel
  import Text

  /** The recent list holds at most this many transactions. */
  const RecentLimit: nat := 15

  /** A chart point; `name` is the JSON `label` (a reserved word in Dafny). */
  datatype ChartPoint = ChartPoint(name: string, value: int)

  // ---------------------------------------------------------------- sums over transactions

  /** The amount spent by the transactions of s. */
  function Spent(s: seq<Transaction>): int {
    if s == [] then 0 else Spent(s[..|s| - 1]) + s[|s| - 1].amount
  }

  /** The amount spent in month m by the transactions of s. */
  function MonthSum(s: seq<Transaction>, m: Month): int {
    if s == [] then 0
    else MonthSum(s[..|s| - 1], m) + (if s[|s| - 1].dateTime.month == m then s[|s| - 1].amount else 0)
  }

  /** The sum of a chart's values. */
  function ChartTotal(chart: seq<ChartPoint>): int {
    if chart == [] then 0 else ChartTotal(chart[..|chart| - 1]) + chart[|chart| - 1].value
  }

  /** Adding v to one point adds v to the chart's total. */
  lemma {:induction false} ChartTotalAdd(chart: seq<ChartPoint>, j: int, v: int)
    requires 0 <= j < |chart|
    ensures ChartTotal(chart[j := chart[j].(value := chart[j].value + v)]) == ChartTotal(chart) + v
  {
    var c := chart[j := chart[j].(value := chart[j].value + v)];
    assert c[..|c| - 1] == if j == |chart| - 1 then chart[..|chart| - 1] else chart[..|chart| - 1][j := c[j]];
    if j < |chart| - 1 {
      ChartTotalAdd(chart[..|chart| - 1], j, v);
    }
  }

  /** The (key, amount) pairs the store groups, one per transaction. */
  function Pairs<K>(s: seq<Transaction>, keyOf: Transaction -> K): (r: seq<(K, int)>)
    ensures |r| == |s|
    ensures forall i :: 0 <= i < |s| ==> r[i] == (keyOf(s[i]), s[i].amount)
  {
    if s == [] then [] else Pairs(s[..|s| - 1], keyOf) + [(keyOf(s[|s| - 1]), s[|s| - 1].amount)]
  }

  /** Grouping loses no amount: the pairs add up to what the transactions spent. */
  lemma {:induction false} TotalOfPairs<K>(s: seq<Transaction>, keyOf: Transaction -> K)
    ensures Total(Pairs(s, keyOf)) == Spent(s)
  {
    if s != [] {
      var p := Pairs(s, keyOf);
      assert p[..|p| - 1] == Pairs(s[..|s| - 1], keyOf);
      TotalOfPairs(s[..|s| - 1], keyOf);
    }
  }

  // ---------------------------------------------------------------- getRecentTransactions

  function OwnedBy(user: string): Transaction -> bool {
    (t: Transaction) => t.user == user
  }

  /** find({ user: _id }): every copy of each of the user's records, in store order. */
  function Owned(store: seq<Transaction>, user: string): (r: seq<Transaction>)
    ensures forall t :: t in r <==> t in store && t.user == user
    ensures forall t :: multiset(r)[t] == if t.user == user then multiset(store)[t] else 0
    ensures IsSubsequence(r, store)
  {
    WhereKeepsOrder(store, OwnedBy(user));
    Where(store, OwnedBy(user))
  }

  /** The sort key of `transactionDateTime`. */
  function When(t: Transaction): int {
    Instant(t.dateTime)
  }

  /** sort({ transactionDateTime: -1 }) */
  function NewestFirst(s: seq<Transaction>): (r: seq<Transaction>)
    ensures SortedDesc(r, When) && multiset(r) == multiset(s)
  {
    SortDesc(s, When)
  }

  /**
   * The user's 15 newest transactions, newest first: every transaction of
   * the user left out is no newer than any listed one, and is left out only
   * when 15 are listed.
   */
  function RecentList(store: seq<Transaction>, user: string): (r: seq<Transaction>)
    ensures |r| <= RecentLimit
    ensures SortedDesc(r, When)
    ensures forall t :: t in r ==> t in store && t.user == user
    ensures forall t :: t in store && t.user == user && t !in r ==>
              |r| == RecentLimit && forall x :: x in r ==> When(t) <= When(x)
    ensures |r| == Min(RecentLimit, |Owned(store, user)|)
    ensures multiset(r) <= multiset(Owned(store, user))
  {
    var owned := Owned(store, user);
    var sorted := NewestFirst(owned);
    PrefixWithin(sorted, Min(RecentLimit, |sorted|));
    SkipLimitSorted(sorted, 0, RecentLimit, When);
    SameMembers(sorted, owned);
    TopDominates(sorted, When, RecentLimit);
    SkipLimit(sorted, 0, RecentLimit)
  }

  /** A prefix holds each element at most as often as the whole sequence. */
  lemma PrefixWithin(s: seq<Transaction>, n: nat)
    requires n <= |s|
    ensures multiset(s[..n]) <= multiset(s)
  {
    assert s == s[..n] + s[n..];
  }

  /** new Date(y, …) reads a year 0..99 as 1900..1999. */
  function ConstructorYear(y: int): int {
    if 0 <= y <= 99 then 1900 + y else y
  }

  function InRecentWindow(year: int): Transaction -> bool {
    (t: Transaction) => Within(t.dateTime, YearStart(ConstructorYear(year)), Dec31Midnight(ConstructorYear(year)))
  }

  /**
   * The transactions the recent chart counts: the user's transactions of the
   * year from Jan 1 00:00 up to Dec 31 00:00 inclusive, so the rest of Dec 31
   * is missed.
   */
  function RecentWindow(store: seq<Transaction>, user: string, year: int): (r: seq<Transaction>)
    ensures forall t :: t in r <==> t in store && t.user == user && InRecentYear(t, year)
    ensures forall t :: multiset(r)[t] == if t.user == user && InRecentYear(t, year) then multiset(store)[t] else 0
  {
    var r := Where(Owned(store, user), InRecentWindow(year));
    assert forall t :: InRecentWindow(year)(t) <==> InRecentYear(t, year) by {
      forall t ensures InRecentWindow(year)(t) <==> InRecentYear(t, year) {
        RecentWindowExact(t.dateTime, ConstructorYear(year));
      }
    }
    r
  }

  /** A date of the year (0..99 read as 1900..1999) other than Dec 31 after 00:00. */
  predicate InRecentYear(t: Transaction, year: int) {
    && t.dateTime.year == ConstructorYear(year)
    && !(t.dateTime.month == 11 && t.dateTime.day == 31 && t.dateTime.ms > 0)
  }

  /** The month chart's values add up to the amount the window spent. */
  lemma {:induction false} MonthChartTotal(window: seq<Transaction>, chart: seq<ChartPoint>)
    requires |chart| == 12
    requires forall m :: 0 <= m < 12 ==> chart[m].value == MonthSum(window, m)
    ensures ChartTotal(chart) == Spent(window)
  {
    if window == [] {
      assert forall m :: 0 <= m < |chart| ==> chart[m].value == 0;
      ZeroChartTotal(chart);
    } else {
      var t := window[|window| - 1];
      var j := t.dateTime.month;
      var before := chart[j := chart[j].(value := chart[j].value - t.amount)];
      MonthChartTotal(window[..|window| - 1], before);
      ChartTotalAdd(before, j, t.amount);
      assert before[j := before[j].(value := before[j].value + t.amount)] == chart;
    }
  }

  lemma {:induction false} ZeroChartTotal(chart: seq<ChartPoint>)
    requires forall m :: 0 <= m < |chart| ==> chart[m].value == 0
    ensures ChartTotal(chart) == 0
  {
    if chart != [] {
      ZeroChartTotal(chart[..|chart| - 1]);
    }
  }

  /**
   * The 12-slot chart: one point per month, labelled Jan … Dec in calendar
   * order, each starting at 0; every transaction's amount is added to the
   * slot of its month.
   */
  method MonthChart(window: seq<Transaction>) returns (chart: seq<ChartPoint>)
    ensures |chart| == 12
    ensures forall m :: 0 <= m < 12 ==> chart[m] == ChartPoint(MonthLabels[m], MonthSum(window, m))
    ensures ChartTotal(chart) == Spent(window)
  {
    var values := new int[12](_ => 0);
    var i := 0;
    while i < |window|
      invariant 0 <= i <= |window|
      invariant forall m :: 0 <= m < 12 ==> values[m] == MonthSum(window[..i], m)
    {
      var t := window[i];
      values[t.dateTime.month] := values[t.dateTime.month] + t.amount;
      assert window[..i + 1][..i] == window[..i];
      i := i + 1;
    }
    assert window[..i] == window;
    chart := [];
    var m := 0;
    while m < 12
      invariant 0 <= m <= 12
      invariant |chart| == m
      invariant forall k :: 0 <= k < m ==> chart[k] == ChartPoint(MonthLabels[k], MonthSum(window, k))
    {
      chart := chart + [ChartPoint(MonthLabels[m], values[m])];
      m := m + 1;
    }
    MonthChartTotal(window, chart);
  }

  /** getRecentTransactions: the month chart of the year and the 15 newest transactions. */
  method GetRecentTransactions(store: seq<Transaction>, user: string, year: int) returns (chart: seq<ChartPoint>, recent: seq<Transaction>)
    ensures |chart| == 12
    ensures forall m :: 0 <= m < 12 ==> chart[m] == ChartPoint(MonthLabels[m], MonthSum(RecentWindow(store, user, year), m))
    ensures ChartTotal(chart) == Spent(RecentWindow(store, user, year))
    ensures recent == RecentList(store, user)
  {
    recent := RecentList(store, user);
    chart := MonthChart(RecentWindow(store, user, year));
  }

  // ---------------------------------------------------------------- paging

  /**
   * One page of records, newest first: page p skips (p - 1) * limit records
   * and keeps at most limit. A page below 1 makes the skip negative, which the
   * store refuses (500); a limit of 0 means no limit to the store.
   */
  function Page(records: seq<Transaction>, page: int, limit: nat): (r: Result<seq<Transaction>, int>)
    ensures limit > 0 && page < 1 <==> r.Err?
    ensures r.Err? ==> r.error == 500
    ensures limit == 0 ==> r == Ok(NewestFirst(records))
    ensures r.Ok? && limit > 0 ==> |r.value| <= limit
  {
    if limit == 0 then Ok(NewestFirst(records))
    else if page < 1 then Err(500)
    else Ok(SkipLimit(NewestFirst(records), Offset(page, limit), limit))
  }

  function Min(a: int, b: int): int {
    if a <= b then a else b
  }

  /** The pages of a listing are consecutive windows of the newest-first order. */
  lemma PageIsWindow(records: seq<Transaction>, p: int, limit: nat)
    requires limit > 0 && p >= 1
    ensures Page(records, p, limit) == Ok(SkipLimit(NewestFirst(records), Offset(p, limit), limit))
    ensures Offset(p, limit) == (p - 1) * limit
  {
    OffsetIsProduct(p, limit);
  }

  /**
   * Reading pages 1 … p in turn yields the p * limit newest records, in
   * order; once p * limit reaches the number of records, the pages hold
   * each record exactly once.
   */
  lemma PagesCoverAll(records: seq<Transaction>, p: nat, limit: nat)
    requires limit > 0
    ensures Paged(NewestFirst(records), p, limit) == NewestFirst(records)[..Min(p * limit, |records|)]
    ensures p * limit >= |records| ==> multiset(Paged(NewestFirst(records), p, limit)) == multiset(records)
  {
    var sorted := NewestFirst(records);
    PagedIsPrefix(sorted, p, limit);
    OffsetIsProduct(p + 1, limit);
    assert sorted[..|records|] == sorted;
  }

  /** getAllTransactions: a page of the user's transactions. */
  function GetAllTransactions(store: seq<Transaction>, user: string, page: int, limit: nat): (r: Result<seq<Transaction>, int>)
    ensures r.Ok? ==> forall t :: t in r.value ==> t in store && t.user == user
    ensures r.Ok? ==> SortedDesc(r.value, When)
    ensures r == Page(Owned(store, user), page, limit)
  {
    PageSorted(Owned(store, user), page, limit);
    Page(Owned(store, user), page, limit)
  }

  /** A page is newest first and holds only records it was given. */
  lemma PageSorted(records: seq<Transaction>, page: int, limit: nat)
    ensures Page(records, page, limit).Ok? ==>
      && SortedDesc(Page(records, page, limit).value, When)
      && forall t :: t in Page(records, page, limit).value ==> t in records
  {
    var sorted := NewestFirst(records);
    assert forall t :: t in sorted ==> t in records by {
      forall t | t in sorted ensures t in records {
        assert t in multiset(sorted);
      }
    }
    if limit > 0 && page >= 1 {
      SkipLimitSorted(sorted, Offset(page, limit), limit, When);
    }
  }

  // ---------------------------------------------------------------- getFilteredTransactions

  /** A query-string parameter: absent, or its text. */
  type Param = Option<string>

  /** JavaScript truthiness of a query parameter: present and non-empty. */
  predicate Truthy(p: Param) {
    p.Some? && p.value != ""
  }

  datatype FilterParams = FilterParams(
    search: Param, tag: Param, paymentMethod: Param,
    startDate: Param, endDate: Param, minAmount: Param, maxAmount: Param)

  /** The query filter: the owner, and each optional condition. */
  datatype Filter = Filter(
    user: string,
    search: Option<string>,
    tag: Option<string>,
    paymentMethod: Option<string>,
    dateFrom: Option<DateTime>,
    dateTo: Option<DateTime>,
    minAmount: Option<int>,
    maxAmount: Option<int>)

  /**
   * Whether the store selects t for filter f. `searchMatches(pattern, text)`
   * stands for a case-insensitive regular-expression match; a missing
   * description never matches.
   */
  predicate Matches(f: Filter, t: Transaction, searchMatches: (string, string) -> bool) {
    && t.user == f.user
    && (f.search.Some? ==>
          || searchMatches(f.search.value, t.title)
          || (t.description.Some? && searchMatches(f.search.value, t.description.value))
          || searchMatches(f.search.value, t.tag))
    && (f.tag.Some? ==> t.tag == f.tag.value)
    && (f.paymentMethod.Some? ==> t.paymentMethod == f.paymentMethod.value)
    && (f.dateFrom.Some? ==> Instant(f.dateFrom.value) <= Instant(t.dateTime))
    && (f.dateTo.Some? ==> Instant(t.dateTime) <= Instant(f.dateTo.value))
    && (f.minAmount.Some? ==> f.minAmount.value <= t.amount)
    && (f.maxAmount.Some? ==> t.amount <= f.maxAmount.value)
  }

  /** A given bound whose text does not convert (an invalid date, a non-number). */
  predicate BadBound<T>(p: Param, parse: string -> Option<T>) {
    Truthy(p) && parse(p.value).None?
  }

  /** A search text that is not a valid regular expression: `new RegExp(search, "i")` throws. */
  predicate BadPattern(p: Param, validPattern: string -> bool) {
    Truthy(p) && !validPattern(p.value)
  }

  /** The parameters the handler cannot turn into a query: a bad search pattern or a bound that does not convert. */
  predicate BadParams(q: FilterParams, validPattern: string -> bool,
                      parseDate: string -> Option<DateTime>, parseAmount: string -> Option<int>)
  {
    || BadPattern(q.search, validPattern)
    || BadBound(q.startDate, parseDate) || BadBound(q.endDate, parseDate)
    || BadBound(q.minAmount, parseAmount) || BadBound(q.maxAmount, parseAmount)
  }

  /**
   * The selection the query parameters ask for, stated on the parameters
   * themselves: the user's transactions meeting each truthy parameter.
   */
  predicate Selected(user: string, q: FilterParams, t: Transaction,
                     parseDate: string -> Option<DateTime>, parseAmount: string -> Option<int>,
                     searchMatches: (string, string) -> bool)
  {
    && t.user == user
    && (Truthy(q.search) ==>
          || searchMatches(q.search.value, t.title)
          || (t.description.Some? && searchMatches(q.search.value, t.description.value))
          || searchMatches(q.search.value, t.tag))
    && (Truthy(q.tag) ==> t.tag == q.tag.value)
    && (Truthy(q.paymentMethod) ==> t.paymentMethod == q.paymentMethod.value)
    && (Truthy(q.startDate) ==>
          parseDate(q.startDate.value).Some? && Instant(parseDate(q.startDate.value).value) <= Instant(t.dateTime))
    && (Truthy(q.endDate) ==>
          parseDate(q.endDate.value).Some? && Instant(t.dateTime) <= Instant(parseDate(q.endDate.value).value))
    && (Truthy(q.minAmount) ==> parseAmount(q.minAmount.value).Some? && parseAmount(q.minAmount.value).value <= t.amount)
    && (Truthy(q.maxAmount) ==> parseAmount(q.maxAmount.value).Some? && t.amount <= parseAmount(q.maxAmount.value).value)
  }

  function SelectedFn(user: string, q: FilterParams,
                      parseDate: string -> Option<DateTime>, parseAmount: string -> Option<int>,
                      searchMatches: (string, string) -> bool): Transaction -> bool
  {
    (t: Transaction) => Selected(user, q, t, parseDate, parseAmount, searchMatches)
  }

  /** A condition taken from a parameter only when the parameter is truthy. */
  function WhenTruthy<T>(p: Param, convert: string -> Option<T>): Option<T> {
    if Truthy(p) then convert(p.value) else None
  }

  /** The filter whose every condition comes from the matching parameter. */
  predicate FromParams(f: Filter, user: string, q: FilterParams,
                       parseDate: string -> Option<DateTime>, parseAmount: string -> Option<int>)
  {
    && f.user == user
    && f.search == (if Truthy(q.search) then q.search else None)
    && f.tag == (if Truthy(q.tag) then q.tag else None)
    && f.paymentMethod == (if Truthy(q.paymentMethod) then q.paymentMethod else None)
    && f.dateFrom == WhenTruthy(q.startDate, parseDate)
    && f.dateTo == WhenTruthy(q.endDate, parseDate)
    && f.minAmount == WhenTruthy(q.minAmount, parseAmount)
    && f.maxAmount == WhenTruthy(q.maxAmount, parseAmount)
  }

  /** With every given bound converted, the filter built from the parameters selects what they ask for. */
  lemma FromParamsSelects(f: Filter, user: string, q: FilterParams,
                          parseDate: string -> Option<DateTime>, parseAmount: string -> Option<int>)
    requires FromParams(f, user, q, parseDate, parseAmount)
    requires !BadBound(q.startDate, parseDate) && !BadBound(q.endDate, parseDate)
    requires !BadBound(q.minAmount, parseAmount) && !BadBound(q.maxAmount, parseAmount)
    ensures forall t, searchMatches: (string, string) -> bool ::
      Matches(f, t, searchMatches) <==> Selected(user, q, t, parseDate, parseAmount, searchMatches)
  {
    assert Truthy(q.startDate) <==> f.dateFrom.Some?;
    assert Truthy(q.endDate) <==> f.dateTo.Some?;
    assert Truthy(q.minAmount) <==> f.minAmount.Some?;
    assert Truthy(q.maxAmount) <==> f.maxAmount.Some?;
  }

  /**
   * Builds the filter by conditional assignment: always the user, and each
   * condition only when its parameter is truthy. `validPattern` is the
   * acceptance of the RegExp constructor, whose SyntaxError the handler
   * answers with 500. `parseDate` and `parseAmount` are the conversions of
   * `new Date` and `parseFloat`; a bound that does not convert makes the
   * store's cast fail, and the handler answers 500.
   */
  method BuildFilter(user: string, q: FilterParams, validPattern: string -> bool,
                     parseDate: string -> Option<DateTime>, parseAmount: string -> Option<int>)
    returns (r: Result<Filter, int>)
    ensures r.Err? <==> BadParams(q, validPattern, parseDate, parseAmount)
    ensures r.Err? ==> r.error == 500
    ensures r.Ok? ==> r.value.user == user
    ensures r.Ok? ==> (r.value.search.Some? <==> Truthy(q.search)) && (Truthy(q.search) ==> r.value.search == q.search)
    ensures r.Ok? ==> (r.value.tag.Some? <==> Truthy(q.tag)) && (Truthy(q.tag) ==> r.value.tag == q.tag)
    ensures r.Ok? ==> forall t, searchMatches: (string, string) -> bool ::
      Matches(r.value, t, searchMatches) <==> Selected(user, q, t, parseDate, parseAmount, searchMatches)
  {
    var search, tag, paymentMethod := None, None, None;
    var dateFrom, dateTo, minAmount, maxAmount := None, None, None, None;
    if Truthy(q.search) {
      if !validPattern(q.search.value) {
        return Err(500);
      }
      search := q.search;
    }
    assert search == (if Truthy(q.search) then q.search else None);
    if Truthy(q.tag) {
      tag := q.tag;
    }
    assert tag == (if Truthy(q.tag) then q.tag else None);
    if Truthy(q.paymentMethod) {
      paymentMethod := q.paymentMethod;
    }
    assert paymentMethod == (if Truthy(q.paymentMethod) then q.paymentMethod else None);
    if Truthy(q.startDate) || Truthy(q.endDate) {
      if Truthy(q.startDate) {
        dateFrom := parseDate(q.startDate.value);
      }
      if Truthy(q.endDate) {
        dateTo := parseDate(q.endDate.value);
      }
    }
    assert dateFrom == WhenTruthy(q.startDate, parseDate) && dateTo == WhenTruthy(q.endDate, parseDate);
    if Truthy(q.minAmount) || Truthy(q.maxAmount) {
      if Truthy(q.minAmount) {
        minAmount := parseAmount(q.minAmount.value);
      }
      if Truthy(q.maxAmount) {
        maxAmount := parseAmount(q.maxAmount.value);
      }
    }
    assert minAmount == WhenTruthy(q.minAmount, parseAmount) && maxAmount == WhenTruthy(q.maxAmount, parseAmount);
    var f := Filter(user, search, tag, paymentMethod, dateFrom, dateTo, minAmount, maxAmount);
    if || BadBound(q.startDate, parseDate) || BadBound(q.endDate, parseDate)
       || BadBound(q.minAmount, parseAmount) || BadBound(q.maxAmount, parseAmount) {
      return Err(500);
    }
    assert !BadParams(q, validPattern, parseDate, parseAmount);
    assert FromParams(f, user, q, parseDate, parseAmount);
    FromParamsSelects(f, user, q, parseDate, parseAmount);
    return Ok(f);
  }

  function MatchesFn(f: Filter, searchMatches: (string, string) -> bool): Transaction -> bool {
    (t: Transaction) => Matches(f, t, searchMatches)
  }

  /**
   * getFilteredTransactions: the page of the selected transactions, newest
   * first; 500 for bad parameters or a page below 1.
   */
  method GetFilteredTransactions(store: seq<Transaction>, user: string, q: FilterParams, page: int, limit: nat,
                                 validPattern: string -> bool,
                                 parseDate: string -> Option<DateTime>, parseAmount: string -> Option<int>,
                                 searchMatches: (string, string) -> bool)
    returns (r: Result<seq<Transaction>, int>)
    ensures r.Err? <==> BadParams(q, validPattern, parseDate, parseAmount) || (limit > 0 && page < 1)
    ensures r.Err? ==> r.error == 500
    ensures !BadParams(q, validPattern, parseDate, parseAmount) ==>
      r == Page(Where(store, SelectedFn(user, q, parseDate, parseAmount, searchMatches)), page, limit)
    ensures r.Ok? ==> forall t :: t in r.value ==> t in store && Selected(user, q, t, parseDate, parseAmount, searchMatches)
    ensures r.Ok? ==> SortedDesc(r.value, When) && (limit > 0 ==> |r.value| <= limit)
  {
    var filter := BuildFilter(user, q, validPattern, parseDate, parseAmount);
    if filter.Err? {
      return Err(filter.error);
    }
    var selected := Where(store, MatchesFn(filter.value, searchMatches));
    WhereSame(store, MatchesFn(filter.value, searchMatches), SelectedFn(user, q, parseDate, parseAmount, searchMatches));
    r := Page(selected, page, limit);
    PageSorted(selected, page, limit);
    if r.Ok? {
      forall t | t in r.value ensures t in store && Selected(user, q, t, parseDate, parseAmount, searchMatches) {
        assert t in selected;
        assert Matches(filter.value, t, searchMatches);
      }
    }
  }

  // ---------------------------------------------------------------- getTagsAndPaymentMethods

  datatype NamedOption = NamedOption(id: string, name: string)

  /**
   * The enum values in their order, each with its display name: the value
   * with its first character upper-cased.
   */
  function NamedOptions(values: seq<string>): (r: seq<NamedOption>)
    ensures |r| == |values|
    ensures forall i :: 0 <= i < |values| ==>
      && r[i].id == values[i]
      && |r[i].name| == |values[i]|
      && (values[i] != "" ==> r[i].name[0] == Text.ToUpperChar(values[i][0]) && r[i].name[1..] == values[i][1..])
  {
    seq(|values|, i requires 0 <= i < |values| => NamedOption(values[i], Text.UpperFirst(values[i])))
  }

  /** getTagsAndPaymentMethods: both lists named. */
  function TagsAndPaymentMethods(enums: Enums): (r: (seq<NamedOption>, seq<NamedOption>))
    ensures |r.0| == |enums.tags| && |r.1| == |enums.paymentMethods|
    ensures forall i :: 0 <= i < |r.0| ==> r.0[i].id == enums.tags[i]
    ensures forall i :: 0 <= i < |r.1| ==> r.1[i].id == enums.paymentMethods[i]
    ensures r == (NamedOptions(enums.tags), NamedOptions(enums.paymentMethods))
  {
    (NamedOptions(enums.tags), NamedOptions(enums.paymentMethods))
  }

  // ---------------------------------------------------------------- getInsightsData

  function YearOf(t: Transaction): int {
    t.dateTime.year
  }

  function TagOf(t: Transaction): string {
    t.tag
  }

  /** `$max` of the amounts. */
  function LargestAmount(s: seq<Transaction>): (r: int)
    requires s != []
    ensures exists i :: 0 <= i < |s| && s[i].amount == r
    ensures forall i :: 0 <= i < |s| ==> s[i].amount <= r
  {
    if |s| == 1 then s[0].amount
    else
      var rest := LargestAmount(s[..|s| - 1]);
      assert forall i :: 0 <= i < |s| - 1 ==> s[..|s| - 1][i] == s[i];
      if s[|s| - 1].amount > rest then s[|s| - 1].amount else rest
  }

  /** The amount spent in year y by the transactions of s. */
  function SpentInYear(s: seq<Transaction>, y: int): int {
    SumOf(Pairs(s, YearOf), y)
  }

  /**
   * One donut chart: a (tag, amount) entry per tag occurring in the window,
   * holding that tag's sum, largest first; together they hold what the
   * window spent.
   */
  function TagBreakdown(window: seq<Transaction>): (r: seq<(string, int)>)
    ensures SortedDesc(r, Amount) && DistinctKeys(r)
    ensures forall tag :: HasKey(r, tag) <==> exists i :: 0 <= i < |window| && window[i].tag == tag
    ensures forall i :: 0 <= i < |r| ==> r[i].1 == SumOf(Pairs(window, TagOf), r[i].0)
    ensures Total(r) == Spent(window)
  {
    var pairs := Pairs(window, TagOf);
    var r := SortGroupsDesc(GroupSum(pairs));
    GroupValues(pairs);
    TagsAreKeys(window);
    TotalOfPairs(window, TagOf);
    r
  }

  /** The keys of the (tag, amount) pairs are exactly the tags that occur. */
  lemma TagsAreKeys(s: seq<Transaction>)
    ensures forall tag :: HasKey(Pairs(s, TagOf), tag) <==> exists i :: 0 <= i < |s| && s[i].tag == tag
  {
    var pairs := Pairs(s, TagOf);
    forall tag ensures HasKey(pairs, tag) <==> exists i :: 0 <= i < |s| && s[i].tag == tag {
      if exists i :: 0 <= i < |s| && s[i].tag == tag {
        var i :| 0 <= i < |s| && s[i].tag == tag;
        assert pairs[i].0 == tag;
      }
    }
  }

  function InYear(y: int): Transaction -> bool {
    (t: Transaction) => Within(t.dateTime, YearStart(y), YearEnd(y))
  }

  function InMonth(y: int, m: Month): Transaction -> bool {
    (t: Transaction) => Within(t.dateTime, MonthStart(y, m), MonthEnd(y, m))
  }

  /** The transactions from Jan 1 00:00 to Dec 31 23:59:59.999: exactly those of year y. */
  function YearWindow(s: seq<Transaction>, y: int): (r: seq<Transaction>)
    ensures forall t :: t in r <==> t in s && t.dateTime.year == y
    ensures forall t :: multiset(r)[t] == if t.dateTime.year == y then multiset(s)[t] else 0
  {
    assert forall t :: InYear(y)(t) <==> t.dateTime.year == y by {
      forall t ensures InYear(y)(t) <==> t.dateTime.year == y { YearWindowExact(t.dateTime, y); }
    }
    Where(s, InYear(y))
  }

  /**
   * The transactions from day 1 00:00 to the month's last day at
   * 23:59:59.999: for real dates, exactly those of month m of year y.
   */
  function MonthWindow(s: seq<Transaction>, y: int, m: Month): (r: seq<Transaction>)
    ensures forall t :: t in r ==> t in s
    ensures forall t :: t in s && ValidDate(t.dateTime) ==> (t in r <==> t.dateTime.year == y && t.dateTime.month == m)
    ensures forall t: Transaction :: ValidDate(t.dateTime) ==>
      multiset(r)[t] == if t.dateTime.year == y && t.dateTime.month == m then multiset(s)[t] else 0
  {
    assert forall t: Transaction :: ValidDate(t.dateTime) ==> (InMonth(y, m)(t) <==> t.dateTime.year == y && t.dateTime.month == m) by {
      forall t: Transaction | ValidDate(t.dateTime) ensures InMonth(y, m)(t) <==> t.dateTime.year == y && t.dateTime.month == m {
        MonthWindowExact(t.dateTime, y, m);
      }
    }
    Where(s, InMonth(y, m))
  }

  datatype Overview = Overview(
    totalSpent: int,
    largestTransaction: int,
    peakYear: int,
    peakYearSpent: int,
    totalTransactions: nat,
    currentYearSpent: int)

  datatype Insights = Insights(
    overview: Overview,
    allTime: seq<(string, int)>,
    currentYear: seq<(string, int)>,
    currentMonth: seq<(string, int)>)

  /** The per-year sums sorted largest first hold, for every year, that year's sum. */
  lemma YearlySums(years: seq<(int, int)>)
    ensures forall k :: SumOf(SortGroupsDesc(GroupSum(years)), k) == SumOf(years, k)
  {
    var yearly := SortGroupsDesc(GroupSum(years));
    forall k ensures SumOf(yearly, k) == SumOf(years, k) {
      if HasKey(yearly, k) {
        var i :| 0 <= i < |yearly| && yearly[i].0 == k;
        GroupValue(years, i);
        SumOfDistinct(yearly, i);
      } else {
        SumOfAbsent(yearly, k);
        SumOfAbsent(years, k);
      }
    }
  }

  /** Every year of a transaction in s is a key of its (year, amount) pairs. */
  lemma YearsAreKeys(s: seq<Transaction>)
    ensures forall i :: 0 <= i < |s| ==> HasKey(Pairs(s, YearOf), s[i].dateTime.year)
  {
    var years := Pairs(s, YearOf);
    forall i | 0 <= i < |s| ensures HasKey(years, s[i].dateTime.year) {
      assert years[i].0 == s[i].dateTime.year;
    }
  }

  /**
   * The first of the per-year sums sorted largest first: a year of the
   * user's, with its sum, that no other year exceeds.
   */
  function PeakYear(owned: seq<Transaction>): (p: (int, int))
    requires owned != []
    ensures exists i :: 0 <= i < |owned| && owned[i].dateTime.year == p.0
    ensures p.1 == SpentInYear(owned, p.0)
    ensures forall i :: 0 <= i < |owned| ==> SpentInYear(owned, owned[i].dateTime.year) <= p.1
  {
    var years := Pairs(owned, YearOf);
    PeakGroup(years);
    YearsAreKeys(owned);
    var peak := SortGroupsDesc(GroupSum(years))[0];
    assert exists i :: 0 <= i < |owned| && owned[i].dateTime.year == peak.0 by {
      var i :| 0 <= i < |years| && years[i].0 == peak.0;
      assert owned[i].dateTime.year == peak.0;
    }
    peak
  }

  /** The current year's entry of the per-year sums, 0 when there is none. */
  function YearSpent(owned: seq<Transaction>, year: int): (r: int)
    ensures r == SpentInYear(owned, year)
  {
    var years := Pairs(owned, YearOf);
    var yearly := SortGroupsDesc(GroupSum(years));
    YearlySums(years);
    LookupIsSum(yearly, year);
    Lookup(yearly, year)
  }

  /**
   * The overview of a user with transactions: the totals, the peak year
   * and the current year's sum (0 without transactions that year).
   */
  function OverviewOf(owned: seq<Transaction>, currentYear: int): (o: Overview)
    requires owned != []
    ensures o.totalTransactions == |owned|
    ensures o.totalSpent == Spent(owned)
    ensures exists i :: 0 <= i < |owned| && owned[i].amount == o.largestTransaction
    ensures forall i :: 0 <= i < |owned| ==> owned[i].amount <= o.largestTransaction
    ensures exists i :: 0 <= i < |owned| && owned[i].dateTime.year == o.peakYear
    ensures o.peakYearSpent == SpentInYear(owned, o.peakYear)
    ensures forall i :: 0 <= i < |owned| ==> SpentInYear(owned, owned[i].dateTime.year) <= o.peakYearSpent
    ensures o.currentYearSpent == SpentInYear(owned, currentYear)
  {
    var peak := PeakYear(owned);
    Overview(Spent(owned), LargestAmount(owned), peak.0, peak.1, |owned|, YearSpent(owned, currentYear))
  }

  /**
   * getInsightsData as it answers (the code after its return never runs).
   * With no transaction the overview aggregation is empty, reading its first
   * entry throws and the handler answers 500. Otherwise the overview and the
   * donut charts for all time, the current year and the current month.
   */
  function GetInsights(store: seq<Transaction>, user: string, now: DateTime): (r: Result<Insights, int>)
    ensures r.Err? <==> forall t :: t in store ==> t.user != user
    ensures r.Err? ==> r.error == 500
    ensures r.Ok? ==>
      var owned := Owned(store, user);
      && owned != []
      && r.value.overview == OverviewOf(owned, now.year)
      && r.value.allTime == TagBreakdown(owned)
      && r.value.currentYear == TagBreakdown(YearWindow(owned, now.year))
      && r.value.currentMonth == TagBreakdown(MonthWindow(owned, now.year, now.month))
  {
    var owned := Owned(store, user);
    if owned == [] then
      Err(500)
    else
      assert owned[0] in owned;
      Ok(Insights(
        OverviewOf(owned, now.year),
        TagBreakdown(owned),
        TagBreakdown(YearWindow(owned, now.year)),
        TagBreakdown(MonthWindow(owned, now.year, now.month))))
  }
}

=== FILE: transaction_model.dfy ===
/**
 * The stored transaction (src/models/transaction.model.js): its fields and
 * the constraints the store enforces when a record is created from a
 * request body (required fields, trimming, length and amount bounds, the
 * closed tag and payment-method lists).
 */
module TransactionModel {
  import opened Wrappers
  import opened Calendar
  import opened Request
  import Text

  const TitleMaxLength: int := 100
  const DescriptionMaxLength: int := 5000
  const StoreMinAmount: int := 1
  const StoreMaxAmount: int := 1_000_000

  /** The closed lists of tags and payment methods (their contents live outside this model). */
  datatype Enums = Enums(tags: seq<string>, paymentMethods: seq<string>)

  /** The listed names are non-empty words (as category and payment-method names are). */
  predicate NonEmptyNames(enums: Enums) {
    "" !in enums.tags && "" !in enums.paymentMethods
  }

  /** A stored transaction, owned by the user whose id is `user`. */
  datatype Transaction = Transaction(
    user: string,
    title: string,
    description: Option<string>,
    amount: int,
    dateTime: DateTime,
    tag: string,
    paymentMethod: string)

  /** The constraints every stored record satisfies. */
  predicate ValidTransaction(t: Transaction, enums: Enums) {
    && t.user != ""
    && t.title != "" && t.title == Text.Trim(t.title) && |t.title| <= TitleMaxLength
    && (t.description.Some? ==>
          t.description.value == Text.Trim(t.description.value) && |t.description.value| <= DescriptionMaxLength)
    && StoreMinAmount <= t.amount <= StoreMaxAmount
    && t.tag in enums.tags
    && t.paymentMethod in enums.paymentMethods
  }

  /**
   * The record the store writes for a create request with this body, or None
   * when validation fails. Keys the schema does not know are dropped;
   * `parseDate` is the store's cast of a date string.
   */
  function Store(body: Body, enums: Enums, parseDate: string -> Option<DateTime>): (r: Option<Transaction>)
    ensures r.Some? ==> ValidTransaction(r.value, enums)
    ensures r.Some? ==> "user" in body && body["user"] == JString(r.value.user)
    ensures r.Some? ==> "amount" in body && body["amount"] == JNumber(r.value.amount)
    ensures r.Some? ==> "title" in body && body["title"].JString? && r.value.title == Text.Trim(body["title"].s)
    ensures r.Some? ==> "transactionDateTime" in body && body["transactionDateTime"].JString?
                        && parseDate(body["transactionDateTime"].s) == Some(r.value.dateTime)
    ensures r.Some? ==> ("description" in body && body["description"].JString?) == r.value.description.Some?
    ensures r.Some? && r.value.description.Some? ==> r.value.description.value == Text.Trim(body["description"].s)
    ensures r.Some? ==> "tag" in body && body["tag"] == JString(r.value.tag)
    ensures r.Some? ==> "paymentMethod" in body && body["paymentMethod"] == JString(r.value.paymentMethod)
  {
    var user := RequiredString(body, "user", false);
    var title := TrimmedField(body, "title");
    var description := DescriptionField(body);
    var amount := if "amount" in body && body["amount"].JNumber? then Some(body["amount"].n) else None;
    var date := DateField(body, parseDate);
    var tag := RequiredString(body, "tag", false);
    var payment := RequiredString(body, "paymentMethod", false);
    if && user.Some? && title.Some? && description.Some? && amount.Some? && date.Some? && tag.Some? && payment.Some?
       && |title.value| <= TitleMaxLength
       && (description.value.Some? ==> |description.value.value| <= DescriptionMaxLength)
       && StoreMinAmount <= amount.value <= StoreMaxAmount
       && tag.value in enums.tags && payment.value in enums.paymentMethods
    then
      Some(Transaction(user.value, title.value, description.value, amount.value, date.value, tag.value, payment.value))
    else None
  }

  /** A required string field, trimmed (`trim: true`); the result is its own trim. */
  function TrimmedField(body: Body, key: string): (r: Option<string>)
    ensures r.Some? <==> key in body && body[key].JString? && Text.Trim(body[key].s) != ""
    ensures r.Some? ==> r.value == Text.Trim(body[key].s) && r.value == Text.Trim(r.value)
  {
    var r := RequiredString(body, key, true);
    if r.Some? then Text.TrimIdempotent(body[key].s); r else r
  }

  /**
   * The optional trimmed description: Some(None) when absent or null,
   * Some(Some(text)) for a string, None (refused) for any other value.
   */
  function DescriptionField(body: Body): (r: Option<Option<string>>)
    ensures r.Some? ==> ("description" in body && body["description"].JString?) == r.value.Some?
    ensures r.Some? && r.value.Some? ==>
              r.value.value == Text.Trim(body["description"].s) && r.value.value == Text.Trim(r.value.value)
    ensures r.None? <==> "description" in body && body["description"] != JNull && !body["description"].JString?
  {
    if "description" !in body || body["description"] == JNull then Some(None)
    else if body["description"].JString? then
      Text.TrimIdempotent(body["description"].s);
      Some(Some(Text.Trim(body["description"].s)))
    else None
  }

  /** The store's cast of the date field, or None when it is missing, not a string or not a date. */
  function DateField(body: Body, parseDate: string -> Option<DateTime>): (r: Option<DateTime>)
    ensures r.Some? <==> "transactionDateTime" in body && body["transactionDateTime"].JString?
                         && parseDate(body["transactionDateTime"].s).Some?
    ensures r.Some? ==> parseDate(body["transactionDateTime"].s) == r
  {
    if "transactionDateTime" in body && body["transactionDateTime"].JString?
    then parseDate(body["transactionDateTime"].s) else None
  }

  predicate StoreAccepts(body: Body, enums: Enums, parseDate: string -> Option<DateTime>) {
    Store(body, enums, parseDate).Some?
  }

  /** A required string field holding one of the listed names. */
  predicate ListedField(body: Body, key: string, names: seq<string>) {
    key in body && body[key].JString? && body[key].s != "" && body[key].s in names
  }

  /** The store's validation rules, field by field, on the raw body. */
  predicate StoreRules(body: Body, enums: Enums, parseDate: string -> Option<DateTime>) {
    && "user" in body && body["user"].JString? && body["user"].s != ""
    && "title" in body && body["title"].JString? && 1 <= |Text.Trim(body["title"].s)| <= TitleMaxLength
    && ("description" in body && body["description"] != JNull ==>
          body["description"].JString? && |Text.Trim(body["description"].s)| <= DescriptionMaxLength)
    && "amount" in body && body["amount"].JNumber?
    && StoreMinAmount <= body["amount"].n <= StoreMaxAmount
    && "transactionDateTime" in body && body["transactionDateTime"].JString?
    && parseDate(body["transactionDateTime"].s).Some?
    && ListedField(body, "tag", enums.tags)
    && ListedField(body, "paymentMethod", enums.paymentMethods)
  }

  /** The store accepts a body exactly when every field rule holds. */
  lemma StoreAcceptsIff(body: Body, enums: Enums, parseDate: string -> Option<DateTime>)
    ensures StoreAccepts(body, enums, parseDate) <==> StoreRules(body, enums, parseDate)
  {
    if StoreRules(body, enums, parseDate) {
      StoreRulesSuffice(body, enums, parseDate);
    }
    if StoreAccepts(body, enums, parseDate) {
      StoreRulesNeeded(body, enums, parseDate);
    }
  }

  lemma StoreRulesSuffice(body: Body, enums: Enums, parseDate: string -> Option<DateTime>)
    requires StoreRules(body, enums, parseDate)
    ensures StoreAccepts(body, enums, parseDate)
  {
    var title := TrimmedField(body, "title");
    assert title.Some? && |title.value| <= TitleMaxLength;
    var description := DescriptionField(body);
    assert description.Some?;
    assert description.value.Some? ==> |description.value.value| <= DescriptionMaxLength;
    assert DateField(body, parseDate).Some?;
    assert RequiredString(body, "tag", false) == Some(body["tag"].s);
    assert RequiredString(body, "paymentMethod", false) == Some(body["paymentMethod"].s);
  }

  lemma StoreRulesNeeded(body: Body, enums: Enums, parseDate: string -> Option<DateTime>)
    requires StoreAccepts(body, enums, parseDate)
    ensures StoreRules(body, enums, parseDate)
  {
    var r := Store(body, enums, parseDate).value;
    var tag := RequiredString(body, "tag", false);
    var payment := RequiredString(body, "paymentMethod", false);
    assert tag.Some? && tag.value in enums.tags;
    assert payment.Some? && payment.value in enums.paymentMethods;
    var description := DescriptionField(body);
    assert description.Some?;
    assert TrimmedField(body, "title") == Some(r.title);
  }
}

=== FILE: transaction_validation.dfy ===
/**
 * The request schemas for adding a transaction:
 * `addTransactionSchema` of src/validation/transactionValidation.joi.js (the
 * one the router applies) and the older variant of the same name in
 * src/validation/addTransactionSchema.joi.js, related to what the store
 * accepts (TransactionModel.Store).
 */
module TransactionSchemas {
  import opened Wrappers
  import opened Calendar
  import opened Request
  import opened TransactionModel
  import Text

  const WiredKeys: set<string> := {"title", "description", "amount", "tag", "transactionDateTime", "paymentMethod"}
  const LegacyKeys: set<string> := WiredKeys + {"user"}
  const WiredMaxAmount: int := 1_000_000_000
  const LegacyMaxAmount: int := 1_000_000

  /** title: a string that, trimmed, has 1 to 100 characters; required. */
  predicate TitleRule(body: Body) {
    var t := RequiredString(body, "title", true);
    t.Some? && 1 <= |t.value| <= 100
  }

  /** amount: a number within [1, max]; required. */
  predicate AmountRule(body: Body, max: int) {
    "amount" in body && body["amount"].JNumber? && 1 <= body["amount"].n <= max
  }

  /** A required string that must be one of `values`. */
  predicate OneOfRule(body: Body, key: string, values: seq<string>) {
    key in body && body[key].JString? && body[key].s in values
  }

  /** A required ISO 8601 date string (`isIso` is Joi's ISO recogniser). */
  predicate IsoDateRule(body: Body, key: string, isIso: string -> bool) {
    key in body && body[key].JString? && isIso(body[key].s)
  }

  /** description in the applied schema: optional, may be empty, trimmed length at most 5000. */
  predicate WiredDescriptionRule(body: Body) {
    "description" in body ==> body["description"].JString? && |Text.Trim(body["description"].s)| <= 5000
  }

  /** description in the older schema: optional, but when present a non-empty trimmed string of at most 5000. */
  predicate LegacyDescriptionRule(body: Body) {
    "description" in body ==>
      var d := JoiString(body["description"], true);
      d.Some? && |d.value| <= 5000
  }

  /** user in the older schema: a required non-empty string. */
  predicate UserRule(body: Body) {
    RequiredString(body, "user", false).Some?
  }

  /** The schema the router applies to POST / (transactionValidation.joi.js). */
  predicate WiredAddTransactionAccepts(body: Body, enums: Enums, isIso: string -> bool) {
    && OnlyDeclaredKeys(body, WiredKeys)
    && TitleRule(body)
    && WiredDescriptionRule(body)
    && AmountRule(body, WiredMaxAmount)
    && OneOfRule(body, "tag", enums.tags)
    && IsoDateRule(body, "transactionDateTime", isIso)
    && OneOfRule(body, "paymentMethod", enums.paymentMethods)
  }

  /** The older schema (addTransactionSchema.joi.js), which no route applies. */
  predicate LegacyAddTransactionAccepts(body: Body, enums: Enums, isIso: string -> bool) {
    && OnlyDeclaredKeys(body, LegacyKeys)
    && TitleRule(body)
    && LegacyDescriptionRule(body)
    && AmountRule(body, LegacyMaxAmount)
    && OneOfRule(body, "tag", enums.tags)
    && IsoDateRule(body, "transactionDateTime", isIso)
    && OneOfRule(body, "paymentMethod", enums.paymentMethods)
    && UserRule(body)
  }

  /** Every ISO date string the schema lets through is one the store can cast. */
  ghost predicate DateCastAgrees(isIso: string -> bool, parseDate: string -> Option<DateTime>) {
    forall s :: isIso(s) ==> parseDate(s).Some?
  }

  /**
   * The applied schema declares no `user` key, and Joi refuses undeclared
   * keys, so a body it accepts has no owner and the store's `user: required`
   * refuses it: no request that passes the applied schema can be stored.
   */
  lemma WiredSchemaNeverStores(body: Body, enums: Enums, isIso: string -> bool, parseDate: string -> Option<DateTime>)
    requires WiredAddTransactionAccepts(body, enums, isIso)
    ensures !StoreAccepts(body, enums, parseDate)
  {
    assert "user" !in body;
  }

  /** An amount in (1e6, 1e9] passes the applied schema's bound and fails the store's. */
  lemma AmountBoundsDisagree(body: Body, n: int)
    requires "amount" in body && body["amount"] == JNumber(n)
    requires StoreMaxAmount < n <= WiredMaxAmount
    ensures AmountRule(body, WiredMaxAmount)
    ensures forall enums, parseDate :: !StoreAccepts(body, enums, parseDate)
  {
  }

  /**
   * The schema evidently intended: the applied one, with the owner declared
   * and required and the amount bounded as the store bounds it.
   */
  predicate IntendedAddTransactionAccepts(body: Body, enums: Enums, isIso: string -> bool) {
    && WiredAddTransactionAccepts(body - {"user"}, enums, isIso)
    && UserRule(body)
    && AmountRule(body, StoreMaxAmount)
  }

  /** Every body the intended schema accepts is one the store accepts. */
  lemma IntendedSchemaStores(body: Body, enums: Enums, isIso: string -> bool, parseDate: string -> Option<DateTime>)
    requires DateCastAgrees(isIso, parseDate) && NonEmptyNames(enums)
    requires IntendedAddTransactionAccepts(body, enums, isIso)
    ensures StoreAccepts(body, enums, parseDate)
  {
    var b := body - {"user"};
    assert WiredAddTransactionAccepts(b, enums, isIso);
    assert b["title"] == body["title"];
    assert "description" in body ==> b["description"] == body["description"];
    assert b["transactionDateTime"] == body["transactionDateTime"];
    assert isIso(body["transactionDateTime"].s);
    assert b["tag"] == body["tag"] && b["paymentMethod"] == body["paymentMethod"];
    assert StoreRules(body, enums, parseDate);
    StoreAcceptsIff(body, enums, parseDate);
  }

  /** The older schema is stricter than the intended one (it also refuses an empty description). */
  lemma LegacyRefinesIntended(body: Body, enums: Enums, isIso: string -> bool)
    requires LegacyAddTransactionAccepts(body, enums, isIso)
    ensures IntendedAddTransactionAccepts(body, enums, isIso)
  {
    var b := body - {"user"};
    assert OnlyDeclaredKeys(b, WiredKeys) by {
      assert b.Keys == body.Keys - {"user"};
    }
    assert TitleRule(b) by { assert b["title"] == body["title"]; }
    assert WiredDescriptionRule(b) by {
      if "description" in b {
        assert b["description"] == body["description"];
      }
    }
    assert AmountRule(b, WiredMaxAmount) by { assert b["amount"] == body["amount"]; }
    assert OneOfRule(b, "tag", enums.tags) by { assert b["tag"] == body["tag"]; }
    assert IsoDateRule(b, "transactionDateTime", isIso) by {
      assert b["transactionDateTime"] == body["transactionDateTime"];
    }
    assert OneOfRule(b, "paymentMethod", enums.paymentMethods) by {
      assert b["paymentMethod"] == body["paymentMethod"];
    }
  }
}

=== FILE: wrappers.dfy ===
/** Optional values and results with an error, as the handlers return them. */
module Wrappers {
  datatype Option<+T> = None | Some(value: T)

  datatype Result<+T, +E> = Ok(value: T) | Err(error: E)
}
